=== FILE: README.md ===
# Düzağaç village site: engagement store, announcement log and galleries

This project models the core of a small Flask site for a village (`app.py`). Visitors can:

- browse photo and video galleries;
- like a post once per device;
- leave comments;
- read the announcements the admin posts.

Everything outside that logic is left out. That covers HTTP, SQLite, the file system, the clock, randomness and the network. What those parts contribute becomes a value or a parameter:

- The database is a value of type `Store`.
- A directory is its listing, a sequence of `DirEntry`.
- The announcement file is its decoded text, a `string`. The program opens it in text mode, so on Windows each written `\n` is stored as `\r\n`, and reading turns `\r\n` and a lone `\r` back into `\n`. The model writes `\n` and reads the raw text. The lines come out the same, because `splitlines()` treats `\r\n` and a lone `\r` as one break each; `Announcements.WindowsLineEnding` states this for `\r\n`.
- Timestamps and device ids are arguments.

The modules:

- `Wrappers` (`wrappers.dfy`): the `Option` type. It stands for a directory that does not exist or a form field that is not an integer.
- `Text`: the Python string operations the site depends on:
  - `str.isspace`;
  - `strip()`;
  - `splitlines()`, including `\r\n` and the other Unicode line breaks;
  - `split()`;
  - `lower()` on ASCII letters;
  - `endswith`;
  - `text[:n]`;
  - POSIX `os.path.basename`;
  - on top of these, `first_name` and `safe_filename`.
- `Engagement`: the `likes` and `comments` tables that `init_db` creates, and the six statements the site runs on them. The `likes` primary key `(post_id, device_id)` is the invariant `UniqueLikeKeys`. The comment ids of SQLite AUTOINCREMENT are handed out by a `lastId` counter that only grows. `Valid` is what every statement preserves.
- `Routes`: the `/like` and `/comment` form handlers. They strip the fields, drop a submission with an empty field, and cut a comment to 250 characters.
- `Announcements`: the line log.
  - `read_lines` splits the text into lines, strips each one and drops the empty ones.
  - `append_line` and `write_lines` produce the new file text.
  - The admin deletes an announcement by its position in the newest-first display. That position maps to file index `len - 1 - rev`.
- `Ranking`: Python's `sort(key=..., reverse=True)` on integer pairs, as a stable descending sort, and the `[:n]` cut after it.
- `Media`: three operations:
  - `list_media`: regular files with an allowed extension, newest first;
  - `top3_photos_by_likes`;
  - the admin's deletion of a photo or video.

## Model

| member | source | states |
|---|---|---|
| `Engagement.InitDb` | app.py:124-147 | The freshly created database has no like rows, no comments and no id handed out yet. It satisfies the primary key and the id invariants. |
| `Engagement.LikeCount` | app.py:187-193 | The count of likes for a post is at most the number of rows. It is zero exactly when no row belongs to that post. |
| `Engagement.LikeCountIsLikers` | app.py:127-133 | With the `(post_id, device_id)` primary key in force, a post's like count equals the number of distinct devices that liked it. |
| `Engagement.HasLiked` | app.py:195-201 | `has_liked(p, d)` is true exactly when a row with key `(p, d)` exists. |
| `Engagement.AddLike` | app.py:203-216 | Returns true exactly when the key is new. On false nothing changes. On true the rows become the old rows followed by one row `(p, d, name, now)`; comments and the id counter are untouched. Afterwards the key exists whatever the answer, no other key appears, and the primary key still holds. |
| `Engagement.AddLikeCount` | app.py:203-216 | A successful `add_like(p, ...)` raises `like_count(p)` by exactly one and no other post's count. A failed one changes no count. |
| `Engagement.AddLikeCounts` | app.py:187-216 | After `add_like(p, d, ...)`, every post's like count is its old count, plus one for `p` exactly when `d` had not liked it yet. |
| `Engagement.AddLikeTwice` | app.py:203-216 | A second like by the same device returns false and leaves the database as the first call left it. The device has liked the post afterwards. |
| `Engagement.CommentsFor` | app.py:218-227 | The result holds exactly the comments of the post. On a valid database their ids are strictly decreasing, so the newest comes first. |
| `Engagement.AddComment` | app.py:229-237 | Always inserts exactly one comment carrying the given fields, after the existing ones, which are unchanged. Its id is larger than every existing id. The invariants are preserved. |
| `Engagement.CommentsForAfterAdd` | app.py:218-237 | After `add_comment` the new comment heads its post's list. Every other post's list is unchanged. |
| `Engagement.DeleteComment` | app.py:239-244 | Exactly the comment with that id is removed. An absent id changes nothing. Likes and the id counter are untouched, and the invariants are preserved. |
| `Engagement.DeleteUndoesAdd` | app.py:229-244 | Deleting the comment just added restores every comment. The consumed id stays used. |
| `Routes.SubmitComment` | app.py:840-854 | If the post id, name or text is white space only, nothing is stored. Otherwise the stripped post id and name are stored with a text that is a prefix of the stripped text, of length `min(250, len)`. Validity and the 250-character bound on stored texts are preserved. |
| `Routes.SubmitLike` | app.py:830-838 | With an empty post id or name nothing changes. Otherwise comments and the id counter are untouched, and the like rows are unchanged when the device had already liked the stripped post id, or gain one row with the stripped post id, the device and the stripped full name. Each post's count rises by one exactly in that second case, and only for that post. |
| `Text.Strip` | app.py:258 | The result has no white space at either end and is a slice of the input with only white space outside it. It is empty exactly when the input is all white space. An already stripped string is returned unchanged. |
| `Text.SplitLines` | app.py:257 | No line of the result contains a line break. A text without breaks is no line when empty and one line otherwise. |
| `Text.SplitLinesAppend` | app.py:257 | Splitting a text that ends in a line break, followed by more text, gives the lines of the two parts concatenated. A final `\r` counts only when the rest does not start with `\n`, since `\r\n` is one break. |
| `Text.SplitLinesOneLine` | app.py:257 | A text without breaks, possibly empty, followed by one break (`\r\n` or any single line-break character) is exactly one line. |
| `Text.SplitWords` | app.py:185 | The words are non-empty and free of white space. There are none exactly when the input is all white space. Otherwise the first word is the run of non-space characters after the leading white space. |
| `Text.SplitWordsOfWord` | app.py:185 | A single non-empty word without white space splits into itself. |
| `Text.SplitWordsAfterSpace` | app.py:185 | White space in front of a text adds no words. |
| `Text.SplitWordsAppend` | app.py:185 | Splitting a text that ends in white space, followed by more text, gives the words of the two parts concatenated. |
| `Text.FirstName` | app.py:183-185 | The result is a prefix of the stripped name containing no white space. It ends where the stripped name ends or at white space, and it is empty exactly when the stripped name is. |
| `Text.Truncate` | app.py:850-851 | `text[:n]` is a prefix of the text of length `min(n, len)`. |
| `Text.Lower` | app.py:171 | Lower-casing keeps the length and maps each character on its own: an upper-case ASCII letter to the letter 32 code points up, anything else to itself. No upper-case ASCII letter is left. |
| `Text.BaseName` | app.py:161-162 | `safe_filename` returns a suffix of the path containing no `/`. When it is shorter than the path, a `/` precedes it. |
| `Text.BaseNameIdempotent` | app.py:161-162 | Applying `safe_filename` twice is the same as applying it once. |
| `Announcements.ReadLines` | app.py:253-261 | Every line read is non-empty, stripped and free of line breaks. A file holding only white space reads as no lines. |
| `Announcements.ReadLinesAfterEntry` | app.py:253-261 | A file ending in a newline, followed by one entry and a newline, reads as the file's entries with that entry last. |
| `Announcements.ReadLinesAppend` | app.py:253-261 | A file whose text ends a line (its last character is a line break, and not a `\r` followed by a `\n` in what comes next) reads as its own lines followed by those of the rest. |
| `Announcements.ReadLinesOneLine` | app.py:253-261 | One line without breaks, followed by one line ending, reads as nothing when it is all white space and as the line stripped of its surrounding white space otherwise. |
| `Announcements.ContactFileReads` | app.py:90-94 | The contact file created at start-up, whose first two lines end in a blank, reads as `Muhtar:`, `Telefon:` and the address line. |
| `Announcements.WindowsLineEnding` | app.py:256-257 | A line stored with the Windows ending `\r\n` reads back exactly as it does with `\n`, whatever follows it. |
| `Announcements.AppendLine` | app.py:263-270 | `append_line` as written leaves the file unchanged on white-space-only text. Otherwise it only appends, at least two characters, ending in a newline. |
| `Announcements.AppendLineAddsEntry` | app.py:263-270 | When the file ends in a newline and the text has no line break other than `\n`, the log reads as before plus exactly one entry: the stripped text with its newlines blanked. |
| `Announcements.AppendLineJoinsUnterminatedLine` | app.py:263-270 | On a file whose last line lacks a newline, the appended text is glued onto that line instead of becoming an entry of its own. |
| `Announcements.GluedEntries` | app.py:263-270 | For every one-line file lacking a final newline and every entry appended to it, the file reads back as the single entry formed by gluing the two. |
| `Announcements.CarriageReturnSplits` | app.py:263-270 | For any two non-space characters `x` and `y`, appending `x\ry` to an empty log reads back as two entries, `x` and `y`. |
| `Announcements.AppendLineSplitsOnCarriageReturn` | app.py:263-270 | A text holding `\r` is appended as one write but reads back as two entries. |
| `Announcements.AppendOneLine` | app.py:263-270 | The corrected append leaves the file unchanged on white-space-only text. Otherwise it only appends and ends in a newline. |
| `Announcements.AppendOneLineAddsEntry` | app.py:263-270 | For every file and every text that is not all white space, the log reads as before plus exactly one entry after all existing ones. |
| `Announcements.WriteLines` | app.py:272-274 | The written file ends in a newline or is empty. A list of entries reads back as the same list. |
| `Announcements.DeleteAnnouncement` | app.py:1071-1084 | A reverse index that is not an integer or is out of range leaves the file unchanged. Otherwise the newest-first display afterwards is the old display without position `rev`. |
| `Announcements.DeleteNewestRemovesLast` | app.py:1080-1083 | Reverse index 0 removes the most recently appended entry and keeps the others in file order. |
| `Announcements.Display` | app.py:789 | The newest-first display has as many entries as the file, and position `i` shows file entry `len - 1 - i`. |
| `Announcements.DisplayTwice` | app.py:974 | Reversing the displayed order gives back the file order, so the display loses no entry and adds none. |
| `Announcements.AnnouncementScenario` | app.py:1030-1036 | The admin posts "Su kesintisi" and then "Yol çalışması" with `append_line` as written on an empty log. They read back in order and display newest first, and deleting reverse index 0 leaves the first. On this input the corrected append writes the same text. |
| `Announcements.PostTwoDeleteNewest` | app.py:253-274 | For any two entries posted with `append_line` on an empty log: they read back in order, display newest first, deleting reverse index 0 leaves the first, and the corrected append writes the same text. |
| `Announcements.AppendTwoEntries` | app.py:263-270 | Two entries appended to an empty log read back as those two, in order, and `append_line` as written and the corrected append produce the same file. |
| `Ranking.SortDesc` | app.py:173 | `sort(reverse=True)` yields a permutation of its input, ordered from the largest key down. |
| `Ranking.SortDescStable` | app.py:173 | The sort is stable: for every key, the elements with that key keep their input order. |
| `Ranking.TopN` | app.py:715-716 | The cut keeps `min(n, len)` elements, sorted, taken from the input. No element left out has a larger key than one kept. |
| `Media.ListMedia` | app.py:164-174 | A missing directory lists nothing. Otherwise the result is a permutation of the regular files with an allowed extension, ordered by creation time, newest first. |
| `Media.MatchingAppend` | app.py:167-172 | Filtering a listing is done entry by entry: the kept items of two listings are the kept items of each, in order. |
| `Media.ListMediaStable` | app.py:164-174 | Files with equal creation times are listed in directory order. |
| `Media.WithLikeCounts` | app.py:710-714 | Each photo becomes `(basename, like_count("foto:" + basename), ts)`, in listing order. |
| `Media.Top3` | app.py:715-716 | Keeps `min(3, n)` photos, ordered by (likes, ts) descending. No photo left out outranks one kept. |
| `Media.Top3PhotosByLikes` | app.py:707-716 | Returns `min(3, listed photos)` items in rank order, each carrying its post's current like count. They are drawn from the counted listing, and no counted photo left out outranks one returned. |
| `Media.Top3Scenario` | app.py:715-716 | Photos with 1, 3 and 0 likes rank as 3, 1, 0. |
| `Media.DeleteMedia` | app.py:1049-1069 | A requested name whose base name lacks an allowed extension changes nothing. Otherwise exactly the regular file with that base name is removed. Nothing but regular files without `/` in the name is ever removed. |
| `Media.ListAfterDelete` | app.py:1049-1069 | After a deletion, the listing is the old listing without the deleted name. |

## Left out

- Flask routing, redirects, cookies and the HTML templates: presentation only. Both form handlers end in a redirect, which is not modelled.
- SQLite connections and commits, file reads and writes, and `os.remove`: the state they act on is a value instead.
- A missing announcement file reads as empty, the same as the empty file the program creates at start-up.
- The clock is a parameter: `created_at` stamps, and creation times as integers. `os.path.getctime` returns a float; only its ordering matters here, so integers stand in for it.
- `uuid4` device ids are a parameter.
- The weather fetch, `fmt_date_ddmmyy`, the admin login and session gate, and the browser-launch timer: network, library date parsing and process control.
- Concurrency: requests are modelled one at a time, each as one atomic function. The program serves them on Flask's threaded server (app.py:1096), and nothing locks the announcement file. `admin_delete_announcement` reads the file (app.py:1074) and later rewrites it (app.py:1083). An announcement that `append_line` adds in between (app.py:1035) is lost in the program. The model cannot lose it, and `Announcements.DeleteAnnouncement` does not show this lost update.
- Storage and decoding errors: they abort the request, and the model has no outcome for them.
  - `add_like` catches only `sqlite3.IntegrityError` (app.py:214). Any other database error, such as a locked database under the threaded server, ends the request with an error.
  - `read_lines` decodes the file as UTF-8 (app.py:256). A hand-edited file saved in another encoding makes the announcement page and the panel fail.
  - `Engagement.AddLike`, `Announcements.ReadLines`, `Announcements.AppendLine` and `Announcements.DeleteAnnouncement` are total. The file they see is text that has already been decoded.
- `int()` parsing of form values: it becomes an `Option<int>` that is `None` when parsing fails.
  - `delete_comment` then receives an arbitrary integer id.
  - For announcements, `None` is the early return.
- `comments_for` returns whole comment rows instead of the four selected columns.
- The display caps on the panel and gallery pages (the panel's `LIMIT 200` query and similar) are presentation, and are not modelled.
- The announcement log is modelled as the file's text rather than as a list of lines. This is what lets the model show the two problems with `append_line` listed below.
- `Text.Lower`: folds only ASCII letters. Python's `str.lower` also folds non-ASCII upper case; the allowed extensions are all ASCII.
- `Text.BaseName`: follows POSIX `os.path.basename`, where only `/` separates. The program is packaged for Windows, where `ntpath.basename` also splits at `\` and drops a drive prefix (`"C:x.jpg"` gives `"x.jpg"`). Those Windows rules are not modelled.
- `Media.DeleteMedia`: compares file names exactly. A Windows file lookup ignores case, so there `X.JPG` would also remove `x.jpg`; the model does not say so.
- `Engagement.AddLikeTwice`: the verifier proves it from `AddLike`'s contract alone. It is kept as a statement of the once-per-device rule.

## Findings

| source | as written | input that shows it | evidently intended | confidence | as-written member | corrected member |
|---|---|---|---|---|---|---|
| app.py:263-270 | `append_line` appends `text + "\n"` to the file as it is, assuming the file already ends in a newline | a file `"Su kesintisi"` with no final newline, then appending `"Yol"`: it reads back as the one entry `"Su kesintisiYol"` | the text becomes a new entry of its own, after all existing entries | not executed | `Announcements.GluedEntries` | `Announcements.AppendOneLineAddsEntry` |
| app.py:263-270 | only `"\n"` is replaced by a space, but `read_lines` uses `splitlines()`, which also breaks at `\r`, `\v`, `\f`, `\x1c`-`\x1e`, `\x85`, U+2028 and U+2029 | appending `"a\rb"` to an empty file: it reads back as two entries, `"a"` and `"b"` | one announcement is stored as exactly one line | not executed | `Announcements.CarriageReturnSplits` | `Announcements.AppendOneLineAddsEntry` |

`Announcements.AppendOneLine` is the corrected definition. It adds a newline first when the file lacks one, and it blanks every line-break character. `Announcements.AppendOneLineAddsEntry` proves that it always adds exactly one entry. `Announcements.AnnouncementScenario` and `Announcements.PostTwoDeleteNewest` show that on entries written to an empty log the two appends agree.

=== FILE: announcements.dfy ===
/** The announcement and contact logs: plain-text files holding one entry per
    line. `ReadLines`, `AppendLine` and `WriteLines` are the file operations
    (`read_lines`, `append_line`, `write_lines`); `DeleteAnnouncement` is the
    admin panel's deletion by position in the newest-first list. A missing
    file reads and behaves as the empty file, which is what the program
    creates at start-up. */
module Announcements {
  import opened Wrappers
  import opened Text

  /** A line as `read_lines` yields it: non-empty, stripped, one line. */
  predicate IsEntry(line: string) {
    line != [] && Stripped(line) && NoLineBreak(line)
  }

  predicate AllEntries(lines: seq<string>) {
    forall i :: 0 <= i < |lines| ==> IsEntry(lines[i])
  }

  /** Empty, or ending in "\n": every file this program writes is one. */
  predicate EndsWithNewline(file: string) {
    file == [] || file[|file| - 1] == '\n'
  }

  /** The stripped lines, with those left empty dropped. */
  function Entries(lines: seq<string>): (r: seq<string>)
    ensures |r| <= |lines|
    ensures (forall i :: 0 <= i < |lines| ==> NoLineBreak(lines[i])) ==> AllEntries(r)
    ensures AllEntries(lines) ==> r == lines
  {
    if lines == [] then []
    else
      var t := Strip(lines[0]);
      if t != [] then
        assert NoLineBreak(lines[0]) ==> NoLineBreak(t) by {
          if NoLineBreak(lines[0]) {
            StripNoLineBreak(lines[0]);
          }
        }
        [t] + Entries(lines[1..])
      else Entries(lines[1..])
  }

  /** What the head line contributes. */
  function HeadEntry(line: string): seq<string> {
    if Strip(line) != [] then [Strip(line)] else []
  }

  lemma EntriesCons(lines: seq<string>)
    requires lines != []
    ensures Entries(lines) == HeadEntry(lines[0]) + Entries(lines[1..])
  {
  }

  lemma {:induction false} EntriesAppend(a: seq<string>, b: seq<string>)
    ensures Entries(a + b) == Entries(a) + Entries(b)
    decreases |a|
  {
    if a == [] {
      assert a + b == b;
    } else {
      var h := HeadEntry(a[0]);
      calc {
        Entries(a + b);
      == { assert (a + b)[0] == a[0];
           assert (a + b)[1..] == a[1..] + b;
           EntriesCons(a + b); }
        h + Entries(a[1..] + b);
      == { EntriesAppend(a[1..], b); }
        h + (Entries(a[1..]) + Entries(b));
      == { SeqAssoc(h, Entries(a[1..]), Entries(b)); }
        (h + Entries(a[1..])) + Entries(b);
      == { EntriesCons(a); }
        Entries(a) + Entries(b);
      }
    }
  }

  lemma SeqAssoc<T>(x: seq<T>, y: seq<T>, z: seq<T>)
    ensures x + (y + z) == (x + y) + z
  {
  }

  /** `read_lines`: the non-empty stripped lines of the file, top to bottom. */
  function ReadLines(file: string): (r: seq<string>)
    ensures AllEntries(r)
    ensures AllSpace(file) ==> r == []
  {
    BlankFileReadsNothing(file);
    Entries(SplitLines(file))
  }

  /** A file that ends a line reads independently of what follows it. */
  lemma ReadLinesAppend(a: string, b: string)
    requires a == [] || EndsLine(a, b)
    ensures ReadLines(a + b) == ReadLines(a) + ReadLines(b)
  {
    SplitLinesAppend(a, b);
    EntriesAppend(SplitLines(a), SplitLines(b));
  }

  /** One line and its line ending read as the stripped line, or as nothing
      when the line is blank. With `ReadLinesAppend` this fixes how every
      line-terminated file reads. */
  lemma ReadLinesOneLine(w: string, e: string)
    requires NoLineBreak(w) && LineEnd(e)
    ensures ReadLines(w + e) == if AllSpace(w) then [] else [Strip(w)]
  {
    SplitLinesOneLine(w, e);
    EntriesCons([w]);
  }

  /** The contact file the program creates at start-up reads as its three
      lines with the trailing blanks stripped. */
  lemma ContactFileReads()
    ensures ReadLines("Muhtar: \n" + "Telefon: \n" + "Adres: Düzağaç Köyü / Kozan\n")
            == ["Muhtar:", "Telefon:", "Adres: Düzağaç Köyü / Kozan"]
  {
    var x, y, z := "Muhtar:" + " ", "Telefon:" + " ", "Adres: Düzağaç Köyü / Kozan";
    ContactText(x, y, z);
    ContactLines(x, y, z);
    var f := (x + "\n") + (y + "\n") + (z + "\n");
    assert ReadLines(f) == ["Muhtar:"] + ["Telefon:"] + [z] by {
      ReadThreeLines(x, y, z);
    }
  }

  /** The contact file's text, line by line. */
  lemma ContactText(x: string, y: string, z: string)
    requires x == "Muhtar:" + " " && y == "Telefon:" + " " && z == "Adres: Düzağaç Köyü / Kozan"
    ensures "Muhtar: \n" == x + "\n" && "Telefon: \n" == y + "\n" && "Adres: Düzağaç Köyü / Kozan\n" == z + "\n"
    ensures ["Muhtar:"] + ["Telefon:"] + [z] == ["Muhtar:", "Telefon:", "Adres: Düzağaç Köyü / Kozan"]
  {
  }

  /** What each line of the contact file contributes. */
  lemma ContactLines(x: string, y: string, z: string)
    requires x == "Muhtar:" + " " && y == "Telefon:" + " " && z == "Adres: Düzağaç Köyü / Kozan"
    ensures NoLineBreak(x) && NoLineBreak(y) && NoLineBreak(z)
    ensures HeadEntry(x) == ["Muhtar:"] && HeadEntry(y) == ["Telefon:"] && HeadEntry(z) == [z]
  {
    ContactEntries();
    BlankEndedLine("Muhtar:");
    BlankEndedLine("Telefon:");
    PlainEntry(z);
  }

  lemma ContactEntries()
    ensures IsEntry("Muhtar:") && IsEntry("Telefon:") && IsEntry("Adres: Düzağaç Köyü / Kozan")
  {
  }

  /** An entry followed by one blank is a line that reads as the entry. */
  lemma BlankEndedLine(t: string)
    requires IsEntry(t)
    ensures NoLineBreak(t + " ") && HeadEntry(t + " ") == [t]
  {
    StripTrailingBlank(t);
    var w := t + " ";
    forall i | 0 <= i < |w|
      ensures !IsLineBreak(w[i])
    {
      if i < |t| {
        assert w[i] == t[i];
      }
    }
  }

  /** Three lines, each ended by "\n", read as the entries of each in turn. */
  lemma ReadThreeLines(x: string, y: string, z: string)
    requires NoLineBreak(x) && NoLineBreak(y) && NoLineBreak(z)
    ensures ReadLines((x + "\n") + (y + "\n") + (z + "\n"))
            == HeadEntry(x) + HeadEntry(y) + HeadEntry(z)
  {
    var fz := z + "\n";
    var fy := (y + "\n") + fz;
    assert ReadLines(fz) == HeadEntry(z) by {
      ReadLineThen(z, []);
      assert fz == (z + "\n") + [];
      assert ReadLines([]) == [];
    }
    assert ReadLines(fy) == HeadEntry(y) + HeadEntry(z) by {
      ReadLineThen(y, fz);
    }
    assert ReadLines((x + "\n") + fy) == HeadEntry(x) + (HeadEntry(y) + HeadEntry(z)) by {
      ReadLineThen(x, fy);
    }
    SeqAssoc(x + "\n", y + "\n", fz);
    SeqAssoc(HeadEntry(x), HeadEntry(y), HeadEntry(z));
  }

  lemma StripTrailingBlank(w: string)
    requires Stripped(w) && w != []
    ensures Strip(w + " ") == w
  {
    var s := w + " ";
    assert s[0] == w[0] && s[|w| - 1] == w[|w| - 1] && IsSpace(s[|w|]);
    assert LeadingSpace(s) == 0;
    assert TrailingSpaceStart(s, 0, |s|) == TrailingSpaceStart(s, 0, |w|) == |w|;
    assert s[0..|w|] == w;
  }

  /** A first line ended by "\n" contributes its own entry, if any, ahead of
      the rest of the file. */
  lemma ReadLineThen(x: string, rest: string)
    requires NoLineBreak(x)
    ensures ReadLines((x + "\n") + rest) == HeadEntry(x) + ReadLines(rest)
  {
    ReadLineEndThen(x, "\n", rest);
  }

  /** The same for a line ended by "\r\n" or "\n". */
  lemma ReadLineEndThen(x: string, e: string, rest: string)
    requires NoLineBreak(x) && (e == "\n" || e == "\r\n")
    ensures ReadLines((x + e) + rest) == HeadEntry(x) + ReadLines(rest)
  {
    var a := x + e;
    assert EndsLine(a, rest) by {
      assert a[|a| - 1] == '\n';
    }
    assert ReadLines(a) == HeadEntry(x) by {
      SplitLinesOneLine(x, e);
      EntriesCons([x]);
      assert [x][1..] == [];
    }
    ReadLinesAppend(a, rest);
  }

  /** A line written with the Windows ending "\r\n" reads as it does with
      "\n": text-mode writes on Windows do not change what is read back. */
  lemma WindowsLineEnding(x: string, rest: string)
    requires NoLineBreak(x)
    ensures ReadLines((x + "\r\n") + rest) == ReadLines((x + "\n") + rest)
  {
    ReadLineEndThen(x, "\r\n", rest);
    ReadLineEndThen(x, "\n", rest);
  }

  lemma BlankFileReadsNothing(file: string)
    ensures AllSpace(file) ==> Entries(SplitLinesFrom(file, [])) == []
  {
    if AllSpace(file) {
      AllSpaceReadsNothing(file, []);
    }
  }

  lemma {:induction false} AllSpaceReadsNothing(s: string, line: string)
    requires AllSpace(s) && AllSpace(line)
    ensures Entries(SplitLinesFrom(s, line)) == []
    decreases |s|
  {
    if s == [] {
      if line != [] {
        assert Entries([line]) == [] by {
          assert Strip(line) == [];
        }
      }
    } else {
      assert IsSpace(s[0]);
      if s[0] == '\r' && |s| > 1 && s[1] == '\n' {
        AllSpaceReadsNothing(s[2..], []);
        assert Strip(line) == [];
      } else if IsLineBreak(s[0]) {
        AllSpaceReadsNothing(s[1..], []);
        assert Strip(line) == [];
      } else {
        AllSpaceReadsNothing(s[1..], line + [s[0]]);
      }
    }
  }

  /** Adding a final "\n" to a file never changes what it reads as. */
  lemma {:induction false} ReadLinesAddNewline(s: string, line: string)
    ensures Entries(SplitLinesFrom(s + "\n", line)) == Entries(SplitLinesFrom(s, line))
    decreases |s|
  {
    var sn := s + "\n";
    if s == [] {
      assert sn[1..] == [];
      assert Entries([[]]) == [];
    } else {
      assert sn[0] == s[0];
      if s[0] == '\r' && |s| > 1 && s[1] == '\n' {
        assert sn[1] == s[1];
        assert sn[2..] == s[2..] + "\n";
        ReadLinesAddNewline(s[2..], []);
        EntriesAppend([line], SplitLinesFrom(sn[2..], []));
        EntriesAppend([line], SplitLinesFrom(s[2..], []));
      } else if s[0] == '\r' && |s| == 1 {
        assert sn[1] == '\n';
        assert sn[2..] == [];
      } else if IsLineBreak(s[0]) {
        assert sn[1..] == s[1..] + "\n";
        if s[0] == '\r' {
          assert sn[1] == s[1];
        }
        ReadLinesAddNewline(s[1..], []);
        EntriesAppend([line], SplitLinesFrom(sn[1..], []));
        EntriesAppend([line], SplitLinesFrom(s[1..], []));
      } else {
        assert sn[1..] == s[1..] + "\n";
        ReadLinesAddNewline(s[1..], line + [s[0]]);
      }
    }
  }

  /** A file ending in "\n" followed by one entry and "\n" reads as the
      file's entries and then that entry. */
  lemma ReadLinesAfterEntry(file: string, line: string)
    requires EndsWithNewline(file) && IsEntry(line)
    ensures ReadLines(file + line + "\n") == ReadLines(file) + [line]
  {
    var g := file + (line + "\n");
    assert file + line + "\n" == g;
    assert SplitLines(g) == SplitLines(file) + [line] by {
      SplitLinesAppend(file, line + "\n");
      SplitLinesOneLine(line, "\n");
    }
    assert Entries(SplitLines(file) + [line]) == Entries(SplitLines(file)) + [line] by {
      EntriesAppend(SplitLines(file), [line]);
      assert Entries([line]) == [line];
    }
  }

  /** `text.replace("\n", " ")`. */
  function BlankNewlines(s: string): (r: string)
    ensures |r| == |s|
    ensures forall i :: 0 <= i < |s| ==> r[i] == if s[i] == '\n' then ' ' else s[i]
  {
    if s == [] then [] else [if s[0] == '\n' then ' ' else s[0]] + BlankNewlines(s[1..])
  }

  /** `append_line` as written: strip the text; if nothing is left do
      nothing, otherwise turn each "\n" into a space and append the result
      and "\n" to the end of the file. */
  function AppendLine(file: string, text: string): (r: string)
    ensures AllSpace(text) ==> r == file
    ensures !AllSpace(text) ==> IsPrefix(file, r) && |r| > |file| + 1 && r[|r| - 1] == '\n'
    ensures EndsWithNewline(file) ==> EndsWithNewline(r)
  {
    var t := Strip(text);
    if t == [] then file
    else file + Strip(BlankNewlines(t)) + "\n"
  }

  /** Blanking the "\n" of a stripped, non-empty text leaves it stripped. */
  lemma BlankNewlinesStripped(t: string)
    requires t != [] && Stripped(t)
    ensures Strip(BlankNewlines(t)) == BlankNewlines(t)
    ensures BlankNewlines(t) != []
  {
    LineBreakIsSpace('\n');
  }

  /** When the file ends in "\n" and the stripped text holds no line break
      other than "\n", `AppendLine` adds exactly one entry after all the
      existing ones: the text with its "\n" blanked. */
  lemma AppendLineAddsEntry(file: string, text: string)
    requires EndsWithNewline(file) && !AllSpace(text)
    requires forall i :: 0 <= i < |Strip(text)| ==> Strip(text)[i] == '\n' || !IsLineBreak(Strip(text)[i])
    ensures ReadLines(AppendLine(file, text)) == ReadLines(file) + [BlankNewlines(Strip(text))]
  {
    var t := Strip(text);
    BlankNewlinesStripped(t);
    ReadLinesAfterEntry(file, BlankNewlines(t));
  }

  /** A file whose last line has no "\n" (one edited by hand, say): the
      appended announcement is glued onto that last line. */
  lemma AppendLineJoinsUnterminatedLine()
    ensures ReadLines(AppendLine("Su kesintisi", "Yol")) == ["Su kesintisiYol"]
  {
    assert IsEntry("Su kesintisi") && IsEntry("Yol");
    GluedEntries("Su kesintisi", "Yol");
    assert "Su kesintisi" + "Yol" == "Su kesintisiYol";
  }

  /** A one-line file without a final "\n", then one appended entry: the
      two read back as a single entry. */
  lemma GluedEntries(a: string, b: string)
    requires IsEntry(a) && IsEntry(b)
    ensures ReadLines(AppendLine(a, b)) == [a + b]
  {
    var w := a + b;
    assert AppendLine(a, b) == [] + w + "\n" by {
      PlainAppend(a, b);
    }
    GluedIsEntry(a, b);
    assert ReadLines([] + w + "\n") == [w] by {
      ReadLinesAfterEntry([], w);
    }
  }

  /** Two entries written one after the other form one entry. */
  lemma GluedIsEntry(a: string, b: string)
    requires IsEntry(a) && IsEntry(b)
    ensures IsEntry(a + b)
  {
    var w := a + b;
    assert w[0] == a[0] && w[|w| - 1] == b[|b| - 1];
    forall i | 0 <= i < |w|
      ensures !IsLineBreak(w[i])
    {
      if i < |a| {
        assert w[i] == a[i];
      } else {
        assert w[i] == b[i - |a|];
      }
    }
  }

  /** Appending an entry writes it and a "\n" unchanged. */
  lemma PlainAppend(file: string, line: string)
    requires IsEntry(line)
    ensures AppendLine(file, line) == file + line + "\n"
  {
    assert Strip(line) == line;
    assert BlankNewlines(line) == line by {
      forall i | 0 <= i < |line|
        ensures BlankNewlines(line)[i] == line[i]
      {
        assert !IsLineBreak(line[i]);
      }
    }
  }

  /** An announcement holding a carriage return: it reads back as two. */
  lemma AppendLineSplitsOnCarriageReturn()
    ensures ReadLines(AppendLine([], "a\rb")) == ["a", "b"]
  {
    assert "a\rb" == ['a', '\r', 'b'];
    CarriageReturnSplits('a', 'b');
  }

  lemma CarriageReturnSplits(x: char, y: char)
    requires !IsSpace(x) && !IsSpace(y)
    ensures ReadLines(AppendLine([], [x, '\r', y])) == [[x], [y]]
  {
    CarriageReturnWritten(x, y);
    CarriageReturnRead(x, y);
    assert Entries([[x], [y]]) == [[x], [y]];
  }

  lemma CarriageReturnWritten(x: char, y: char)
    requires !IsSpace(x) && !IsSpace(y)
    ensures AppendLine([], [x, '\r', y]) == [x, '\r', y, '\n']
  {
    var text := [x, '\r', y];
    assert Stripped(text);
    assert BlankNewlines(text) == text;
  }

  lemma CarriageReturnRead(x: char, y: char)
    requires !IsSpace(x) && !IsSpace(y)
    ensures SplitLines([x, '\r', y, '\n']) == [[x], [y]]
  {
    var file := [x, '\r', y, '\n'];
    LineBreakIsSpace(x);
    LineBreakIsSpace(y);
    assert file[1..] == ['\r', y, '\n'] && file[2..] == [y, '\n'];
    assert [] + [x] == [x];
    assert SplitLinesFrom(file, []) == SplitLinesFrom(file[1..], [x]);
    assert SplitLinesFrom(file[1..], [x]) == [[x]] + SplitLinesFrom(file[2..], []);
    assert [y] + "\n" == file[2..];
    SplitLinesOneLine([y], "\n");
  }

  /** Every line-break character of `s` replaced by a space. */
  function BlankLineBreaks(s: string): (r: string)
    ensures |r| == |s| && NoLineBreak(r)
    ensures forall i :: 0 <= i < |s| ==> r[i] == if IsLineBreak(s[i]) then ' ' else s[i]
  {
    if s == [] then [] else [if IsLineBreak(s[0]) then ' ' else s[0]] + BlankLineBreaks(s[1..])
  }

  /** `append_line` as intended: the text always becomes exactly one new
      line, whatever line breaks it holds and whether or not the file
      already ends in "\n". */
  function AppendOneLine(file: string, text: string): (r: string)
    ensures AllSpace(text) ==> r == file
    ensures !AllSpace(text) ==> IsPrefix(file, r) && |r| > |file| && r[|r| - 1] == '\n'
    ensures EndsWithNewline(file) ==> EndsWithNewline(r)
  {
    var t := Strip(text);
    if t == [] then file
    else
      var head := if EndsWithNewline(file) then file else file + "\n";
      var r := head + (Strip(BlankLineBreaks(t)) + "\n");
      assert r[..|file|] == head[..|file|] == file;
      r
  }

  /** The corrected append: the log reads as before plus one entry, the
      stripped text with its line breaks blanked, for every file and text. */
  lemma AppendOneLineAddsEntry(file: string, text: string)
    requires !AllSpace(text)
    ensures ReadLines(AppendOneLine(file, text)) == ReadLines(file) + [BlankLineBreaks(Strip(text))]
  {
    var t := Strip(text);
    var line := BlankLineBreaks(t);
    BlankedIsEntry(t);
    var head := if EndsWithNewline(file) then file else file + "\n";
    assert ReadLines(head) == ReadLines(file) by {
      if !EndsWithNewline(file) {
        ReadLinesAddNewline(file, []);
      }
    }
    assert AppendOneLine(file, text) == head + line + "\n";
    ReadLinesAfterEntry(head, line);
  }

  /** A stripped, non-empty text with its line breaks blanked is an entry. */
  lemma BlankedIsEntry(t: string)
    requires t != [] && Stripped(t)
    ensures IsEntry(BlankLineBreaks(t)) && Strip(BlankLineBreaks(t)) == BlankLineBreaks(t)
  {
    LineBreakIsSpace(t[0]);
    LineBreakIsSpace(t[|t| - 1]);
    assert Stripped(BlankLineBreaks(t));
  }

  /** `"\n".join(lines)`. */
  function Join(lines: seq<string>): (r: string)
    ensures lines != [] && lines[0] != [] ==> r != [] && r[0] == lines[0][0]
    ensures lines != [] && lines[|lines| - 1] != [] ==>
              r != [] && r[|r| - 1] == lines[|lines| - 1][|lines[|lines| - 1]| - 1]
  {
    if lines == [] then []
    else if |lines| == 1 then lines[0]
    else lines[0] + "\n" + Join(lines[1..])
  }

  /** `write_lines`: the lines joined by "\n", stripped, with a final "\n"
      unless there are no lines. */
  function WriteLines(lines: seq<string>): (r: string)
    ensures EndsWithNewline(r)
    ensures AllEntries(lines) ==> ReadLines(r) == lines
  {
    WriteLinesReadsBack(lines);
    Strip(Join(lines)) + (if lines == [] then "" else "\n")
  }

  lemma {:induction false} SplitJoin(lines: seq<string>)
    requires lines != [] && AllEntries(lines)
    ensures SplitLines(Join(lines) + "\n") == lines
    decreases |lines|
  {
    if |lines| == 1 {
      SplitLinesOneLine(lines[0], "\n");
    } else {
      var rest := lines[1..];
      assert Join(lines) + "\n" == (lines[0] + "\n") + (Join(rest) + "\n");
      SplitLinesAppend(lines[0] + "\n", Join(rest) + "\n");
      SplitLinesOneLine(lines[0], "\n");
      SplitJoin(rest);
    }
  }

  lemma WriteLinesReadsBack(lines: seq<string>)
    ensures AllEntries(lines) ==>
              ReadLines(Strip(Join(lines)) + (if lines == [] then "" else "\n")) == lines
  {
    if lines != [] && AllEntries(lines) {
      assert IsEntry(lines[0]) && IsEntry(lines[|lines| - 1]);
      assert Stripped(Join(lines));
      SplitJoin(lines);
    }
  }

  /** `lines[::-1]`: the newest-first order the site displays. */
  function Display(lines: seq<string>): (r: seq<string>)
    ensures |r| == |lines|
    ensures forall i {:trigger r[i]} :: 0 <= i < |lines| ==> r[i] == lines[|lines| - 1 - i]
  {
    seq(|lines|, i requires 0 <= i < |lines| => lines[|lines| - 1 - i])
  }

  /** Reversing the display gives back the file order. */
  lemma DisplayTwice(lines: seq<string>)
    ensures Display(Display(lines)) == lines
  {
    var d := Display(lines);
    forall i | 0 <= i < |lines|
      ensures Display(d)[i] == lines[i]
    {
      assert d[|d| - 1 - i] == lines[i];
    }
  }

  /** `del lines[i]`. */
  function RemoveAt(lines: seq<string>, i: int): (r: seq<string>)
    requires 0 <= i < |lines|
    ensures |r| == |lines| - 1
    ensures forall j :: 0 <= j < i ==> r[j] == lines[j]
    ensures forall j {:trigger r[j]} :: i <= j < |r| ==> r[j] == lines[j + 1]
  {
    lines[..i] + lines[i + 1..]
  }

  /** Removing the line at display position `rev` from the file order is
      removing position `rev` from the displayed list. */
  lemma DisplayRemoveAt(lines: seq<string>, rev: int)
    requires 0 <= rev < |lines|
    ensures Display(RemoveAt(lines, |lines| - 1 - rev)) == RemoveAt(Display(lines), rev)
  {
  }

  /** `admin_delete_announcement`: `revIndex` is the position in the
      newest-first list (None when the form value is not an integer); the
      file is rewritten without that entry when the position exists and is
      left as it is otherwise. */
  function DeleteAnnouncement(file: string, revIndex: Option<int>): (r: string)
    ensures revIndex.None? || !(0 <= revIndex.value < |ReadLines(file)|) ==> r == file
    ensures revIndex.Some? && 0 <= revIndex.value < |ReadLines(file)| ==>
              Display(ReadLines(r)) == RemoveAt(Display(ReadLines(file)), revIndex.value)
  {
    var lines := ReadLines(file);
    match revIndex
    case None => file
    case Some(rev) =>
      var realIndex := |lines| - 1 - rev;
      if 0 <= realIndex < |lines| then
        DisplayRemoveAt(lines, rev);
        WriteLines(RemoveAt(lines, realIndex))
      else file
  }

  /** Reverse index 0 removes the most recently appended entry and keeps
      the others in their order. */
  lemma DeleteNewestRemovesLast(file: string)
    requires ReadLines(file) != []
    ensures ReadLines(DeleteAnnouncement(file, Some(0))) == ReadLines(file)[..|ReadLines(file)| - 1]
  {
    var lines := ReadLines(file);
    var after := ReadLines(DeleteAnnouncement(file, Some(0)));
    assert Display(after) == RemoveAt(Display(lines), 0);
    RemoveNewest(lines, after);
  }

  /** A list whose newest-first display is the old display without its
      head is the old list without its last element. */
  lemma RemoveNewest(lines: seq<string>, after: seq<string>)
    requires lines != [] && Display(after) == RemoveAt(Display(lines), 0)
    ensures after == lines[..|lines| - 1]
  {
    var d, da := Display(lines), Display(after);
    var n := |after|;
    assert n == |lines| - 1;
    forall i | 0 <= i < n
      ensures after[i] == lines[i]
    {
      var j := n - 1 - i;
      calc {
        after[i];
        da[j];
        d[j + 1];
        lines[i];
      }
    }
    assert after == lines[..n];
  }

  /** The admin posts two announcements on an empty log with `append_line`
      as written, the site lists them newest first, and the admin deletes
      the newest. */
  lemma AnnouncementScenario()
    ensures var f := AppendLine(AppendLine([], "Su kesintisi"), "Yol çalışması");
            && ReadLines(f) == ["Su kesintisi", "Yol çalışması"]
            && Display(ReadLines(f)) == ["Yol çalışması", "Su kesintisi"]
            && ReadLines(DeleteAnnouncement(f, Some(0))) == ["Su kesintisi"]
            && AppendOneLine(AppendOneLine([], "Su kesintisi"), "Yol çalışması") == f
  {
    ScenarioEntries();
    PostTwoDeleteNewest("Su kesintisi", "Yol çalışması");
  }

  /** Two entries posted on an empty log read back in order, display newest
      first, and deleting reverse index 0 leaves the first. */
  lemma PostTwoDeleteNewest(a: string, b: string)
    requires IsEntry(a) && IsEntry(b)
    ensures var f := AppendLine(AppendLine([], a), b);
            && ReadLines(f) == [a, b]
            && Display(ReadLines(f)) == [b, a]
            && ReadLines(DeleteAnnouncement(f, Some(0))) == [a]
            && AppendOneLine(AppendOneLine([], a), b) == f
  {
    var f := AppendLine(AppendLine([], a), b);
    assert ReadLines(f) == [a, b] && AppendOneLine(AppendOneLine([], a), b) == f by {
      AppendTwoEntries(a, b);
    }
    assert Display([a, b]) == [b, a] by {
      ScenarioDisplay(a, b);
    }
    DeleteNewestOfTwo(f, a, b);
  }

  lemma DeleteNewestOfTwo(f: string, a: string, b: string)
    requires ReadLines(f) == [a, b]
    ensures ReadLines(DeleteAnnouncement(f, Some(0))) == [a]
  {
    DeleteNewestRemovesLast(f);
    assert [a, b][..1] == [a];
  }

  /** On an empty log and two plain entries, `append_line` as written and
      the corrected append write the same text, which reads back as the two
      entries in order. */
  lemma AppendTwoEntries(a: string, b: string)
    requires IsEntry(a) && IsEntry(b)
    ensures ReadLines(AppendLine(AppendLine([], a), b)) == [a, b]
    ensures AppendOneLine(AppendOneLine([], a), b) == AppendLine(AppendLine([], a), b)
  {
    AppendTwoReads(a, b);
    AppendTwoSame(a, b);
  }

  lemma AppendTwoReads(a: string, b: string)
    requires IsEntry(a) && IsEntry(b)
    ensures ReadLines(AppendLine(AppendLine([], a), b)) == [a, b]
  {
    var f1 := AppendLine([], a);
    assert f1 == a + "\n" && ReadLines(f1) == [a] by {
      FirstAppend(a);
    }
    assert EndsWithNewline(f1);
    assert AppendLine(f1, b) == f1 + b + "\n" by {
      PlainAppend(f1, b);
    }
    assert ReadLines(f1 + b + "\n") == ReadLines(f1) + [b] by {
      ReadLinesAfterEntry(f1, b);
    }
  }

  lemma AppendTwoSame(a: string, b: string)
    requires IsEntry(a) && IsEntry(b)
    ensures AppendOneLine(AppendOneLine([], a), b) == AppendLine(AppendLine([], a), b)
  {
    var f1 := AppendLine([], a);
    FirstAppend(a);
    PlainAppend(f1, b);
    PlainAppendOne(f1, b);
  }

  /** The first entry on an empty log: both appends write it and a "\n",
      which reads back as that entry. */
  lemma FirstAppend(a: string)
    requires IsEntry(a)
    ensures AppendLine([], a) == a + "\n" && AppendOneLine([], a) == a + "\n"
    ensures ReadLines(a + "\n") == [a]
  {
    assert [] + a + "\n" == a + "\n";
    assert AppendLine([], a) == [] + a + "\n" by {
      PlainAppend([], a);
    }
    assert AppendOneLine([], a) == [] + a + "\n" by {
      PlainAppendOne([], a);
    }
    assert ReadLines([] + a + "\n") == ReadLines([]) + [a] by {
      ReadLinesAfterEntry([], a);
    }
    assert ReadLines([]) == [];
  }

  /** On a file ending in "\n", the corrected append of an entry writes it
      and a "\n" unchanged. */
  lemma PlainAppendOne(file: string, line: string)
    requires EndsWithNewline(file) && IsEntry(line)
    ensures AppendOneLine(file, line) == file + line + "\n"
  {
    assert Strip(line) == line && BlankLineBreaks(line) == line by {
      PlainEntry(line);
    }
    assert AppendOneLine(file, line) == file + (line + "\n");
    SeqAssoc(file, line, "\n");
  }

  lemma ScenarioDisplay(a: string, b: string)
    ensures Display([a, b]) == [b, a]
  {
    var d := Display([a, b]);
    assert d[0] == b && d[1] == a;
  }

  lemma ScenarioEntries()
    ensures IsEntry("Su kesintisi") && IsEntry("Yol çalışması")
  {
  }

  /** An entry without line breaks is its own stripped, blanked form. */
  lemma PlainEntry(s: string)
    requires IsEntry(s)
    ensures !AllSpace(s) && Strip(s) == s && BlankLineBreaks(s) == s
  {
  }
}

=== FILE: engagement.dfy ===
/** The engagement store: the two tables `init_db` creates, and the queries
    and statements the site runs on them (`like_count`, `has_liked`,
    `add_like`, `comments_for`, `add_comment`, `delete_comment`). The database
    is a value; every statement is a function from the old value to the new
    one. Row timestamps (`created_at`) are parameters, since they come from
    the clock. */
module Engagement {

  /** A row of `likes`. `(postId, deviceId)` is the table's primary key. */
  datatype Like = Like(postId: string, deviceId: string, nameFull: string, createdAt: string)

  /** A row of `comments`; `id` is the AUTOINCREMENT primary key. */
  datatype Comment = Comment(
    id: int, postId: string, deviceId: string, nameFull: string, text: string, createdAt: string)

  /** The database. Rows are kept in insertion order; `lastId` is the
      AUTOINCREMENT counter, the largest comment id ever handed out (ids are
      not reused after a deletion). */
  datatype Store = Store(likes: seq<Like>, comments: seq<Comment>, lastId: nat)

  /** A row with key `(p, d)` exists. */
  predicate HasLikeRow(likes: seq<Like>, p: string, d: string) {
    exists i :: 0 <= i < |likes| && likes[i].postId == p && likes[i].deviceId == d
  }

  /** The primary key of `likes` holds: no two rows share a key. */
  predicate UniqueLikeKeys(likes: seq<Like>) {
    forall i, j :: 0 <= i < j < |likes| ==>
      likes[i].postId != likes[j].postId || likes[i].deviceId != likes[j].deviceId
  }

  /** Ids increase in insertion order. */
  predicate IdsIncreasing(comments: seq<Comment>) {
    forall i, j :: 0 <= i < j < |comments| ==> comments[i].id < comments[j].id
  }

  /** Every id lies between 1 and `lastId`, the last one handed out. */
  predicate IdsIssued(comments: seq<Comment>, lastId: int) {
    forall i :: 0 <= i < |comments| ==> 1 <= comments[i].id <= lastId
  }

  /** What the schema and the statements keep true of the database. */
  predicate Valid(s: Store) {
    UniqueLikeKeys(s.likes) && IdsIncreasing(s.comments) && IdsIssued(s.comments, s.lastId)
  }

  /** `init_db` on a fresh database: both tables empty. */
  function InitDb(): (s: Store)
    ensures Valid(s)
    ensures forall p, d :: !HasLikeRow(s.likes, p, d)
    ensures s.comments == [] && s.lastId == 0
  {
    Store([], [], 0)
  }

  /** `SELECT COUNT(*) FROM likes WHERE post_id=?`. */
  function CountPost(likes: seq<Like>, p: string): (n: nat)
    ensures n <= |likes|
    ensures n == 0 <==> forall i :: 0 <= i < |likes| ==> likes[i].postId != p
  {
    if likes == [] then 0
    else (if likes[0].postId == p then 1 else 0) + CountPost(likes[1..], p)
  }

  /** `like_count`. */
  function LikeCount(s: Store, p: string): (n: nat)
    ensures n <= |s.likes|
    ensures n == 0 <==> forall i :: 0 <= i < |s.likes| ==> s.likes[i].postId != p
  {
    CountPost(s.likes, p)
  }

  /** The devices that have liked post `p`. */
  function Likers(likes: seq<Like>, p: string): set<string> {
    set i | 0 <= i < |likes| && likes[i].postId == p :: likes[i].deviceId
  }

  /** `has_liked`: a scan for a row with key `(p, d)`. */
  function FindLike(likes: seq<Like>, p: string, d: string): (b: bool)
    ensures b <==> HasLikeRow(likes, p, d)
  {
    if likes == [] then false
    else if likes[0].postId == p && likes[0].deviceId == d then true
    else
      var b := FindLike(likes[1..], p, d);
      assert b ==> HasLikeRow(likes, p, d) by {
        if b {
          var i :| 0 <= i < |likes[1..]| && likes[1..][i].postId == p && likes[1..][i].deviceId == d;
          assert likes[i + 1] == likes[1..][i];
        }
      }
      assert HasLikeRow(likes, p, d) ==> b by {
        if HasLikeRow(likes, p, d) {
          var i :| 0 <= i < |likes| && likes[i].postId == p && likes[i].deviceId == d;
          assert i != 0;
          assert likes[1..][i - 1] == likes[i];
        }
      }
      b
  }

  function HasLiked(s: Store, p: string, d: string): (b: bool)
    ensures b <==> HasLikeRow(s.likes, p, d)
  {
    FindLike(s.likes, p, d)
  }

  /** `add_like`: the INSERT succeeds (true) when no row has key `(p, d)`,
      and fails on the primary key (false, nothing changes) otherwise. */
  function AddLike(s: Store, p: string, d: string, nameFull: string, now: string): (r: (bool, Store))
    ensures r.0 <==> !HasLikeRow(s.likes, p, d)
    ensures !r.0 ==> r.1 == s
    ensures r.1.comments == s.comments && r.1.lastId == s.lastId
    ensures |r.1.likes| == |s.likes| + (if r.0 then 1 else 0)
    ensures r.0 ==> r.1.likes == s.likes + [Like(p, d, nameFull, now)]
    ensures forall q, e :: HasLikeRow(r.1.likes, q, e) <==> HasLikeRow(s.likes, q, e) || (q == p && e == d)
    ensures Valid(s) ==> Valid(r.1)
  {
    if HasLiked(s, p, d) then (false, s)
    else
      var likes := s.likes + [Like(p, d, nameFull, now)];
      assert likes[|s.likes|].postId == p && likes[|s.likes|].deviceId == d;
      assert forall q, e :: HasLikeRow(s.likes, q, e) ==> HasLikeRow(likes, q, e) by {
        forall q, e | HasLikeRow(s.likes, q, e)
          ensures HasLikeRow(likes, q, e)
        {
          var i :| 0 <= i < |s.likes| && s.likes[i].postId == q && s.likes[i].deviceId == e;
          assert likes[i] == s.likes[i];
        }
      }
      (true, s.(likes := likes))
  }

  lemma {:induction false} CountPostAppend(likes: seq<Like>, x: Like, p: string)
    ensures CountPost(likes + [x], p) == CountPost(likes, p) + (if x.postId == p then 1 else 0)
    decreases |likes|
  {
    if likes == [] {
      assert likes + [x] == [x];
    } else {
      assert (likes + [x])[1..] == likes[1..] + [x];
      CountPostAppend(likes[1..], x, p);
    }
  }

  /** A successful `add_like(p, ...)` raises `like_count(p)` by one and no
      other post's count; a failed one changes no count. */
  lemma AddLikeCount(s: Store, p: string, d: string, nameFull: string, now: string, q: string)
    ensures var r := AddLike(s, p, d, nameFull, now);
            LikeCount(r.1, q) == LikeCount(s, q) + (if r.0 && q == p then 1 else 0)
  {
    var r := AddLike(s, p, d, nameFull, now);
    if r.0 {
      assert r.1.likes == s.likes + [Like(p, d, nameFull, now)];
      CountPostAppend(s.likes, Like(p, d, nameFull, now), q);
    }
  }

  /** `AddLikeCount` for every post at once. */
  lemma AddLikeCounts(s: Store, p: string, d: string, nameFull: string, now: string)
    ensures forall q :: LikeCount(AddLike(s, p, d, nameFull, now).1, q)
                        == LikeCount(s, q) + (if q == p && !HasLiked(s, p, d) then 1 else 0)
  {
    forall q
      ensures LikeCount(AddLike(s, p, d, nameFull, now).1, q)
              == LikeCount(s, q) + (if q == p && !HasLiked(s, p, d) then 1 else 0)
    {
      AddLikeCount(s, p, d, nameFull, now, q);
    }
  }

  /** Liking twice: the first call decides, the second returns false and
      changes nothing, and the device has liked the post either way. */
  lemma AddLikeTwice(s: Store, p: string, d: string, n1: string, t1: string, n2: string, t2: string)
    ensures var first := AddLike(s, p, d, n1, t1);
            var second := AddLike(first.1, p, d, n2, t2);
            && (first.0 <==> !HasLiked(s, p, d))
            && !second.0 && second.1 == first.1
            && HasLiked(second.1, p, d)
  {
  }

  /** With the primary key in force, `like_count(p)` is the number of
      distinct devices that have liked `p`. */
  lemma {:induction false} LikeCountIsLikers(likes: seq<Like>, p: string)
    requires UniqueLikeKeys(likes)
    ensures CountPost(likes, p) == |Likers(likes, p)|
    decreases |likes|
  {
    if likes != [] {
      var rest := likes[1..];
      assert UniqueLikeKeys(rest) by {
        forall i, j | 0 <= i < j < |rest|
          ensures rest[i].postId != rest[j].postId || rest[i].deviceId != rest[j].deviceId
        {
          assert rest[i] == likes[i + 1] && rest[j] == likes[j + 1];
        }
      }
      LikeCountIsLikers(rest, p);
      LikersCons(likes, p);
      if likes[0].postId == p {
        FirstLikerIsNew(likes, p);
      }
    }
  }

  /** The likers of `p` are those of the first row and of the rest. */
  lemma LikersCons(likes: seq<Like>, p: string)
    requires likes != []
    ensures Likers(likes, p)
            == (if likes[0].postId == p then {likes[0].deviceId} else {}) + Likers(likes[1..], p)
  {
    var rest := likes[1..];
    forall e | e in Likers(likes, p)
      ensures e in (if likes[0].postId == p then {likes[0].deviceId} else {}) + Likers(rest, p)
    {
      var i :| 0 <= i < |likes| && likes[i].postId == p && likes[i].deviceId == e;
      if i > 0 {
        assert rest[i - 1] == likes[i];
      }
    }
    forall e | e in Likers(rest, p)
      ensures e in Likers(likes, p)
    {
      var i :| 0 <= i < |rest| && rest[i].postId == p && rest[i].deviceId == e;
      assert likes[i + 1] == rest[i];
    }
  }

  /** Under the primary key, the device of the first like of `p` has no
      other like of `p`. */
  lemma FirstLikerIsNew(likes: seq<Like>, p: string)
    requires UniqueLikeKeys(likes) && likes != [] && likes[0].postId == p
    ensures likes[0].deviceId !in Likers(likes[1..], p)
  {
    var rest := likes[1..];
    forall i | 0 <= i < |rest| && rest[i].postId == p
      ensures rest[i].deviceId != likes[0].deviceId
    {
      assert likes[i + 1] == rest[i];
    }
  }

  /** Ids strictly decreasing: newest first. */
  predicate IdsDecreasing(comments: seq<Comment>) {
    forall i, j :: 0 <= i < j < |comments| ==> comments[i].id > comments[j].id
  }

  /** Splitting off the first comment: the rest keeps its order, and
      every id in it is larger. */
  lemma IncreasingTail(comments: seq<Comment>)
    requires comments != []
    ensures forall c :: c in comments <==> c == comments[0] || c in comments[1..]
    ensures IdsIncreasing(comments) ==>
              IdsIncreasing(comments[1..]) && forall c :: c in comments[1..] ==> comments[0].id < c.id
  {
    assert comments == [comments[0]] + comments[1..];
    if IdsIncreasing(comments) {
      forall c | c in comments[1..]
        ensures comments[0].id < c.id
      {
        var j :| 0 <= j < |comments[1..]| && comments[1..][j] == c;
        assert comments[j + 1] == c;
      }
    }
  }

  /** The comments of post `p`, last inserted first. */
  function NewestFirst(comments: seq<Comment>, p: string): (r: seq<Comment>)
    ensures forall c :: c in r <==> c in comments && c.postId == p
    ensures IdsIncreasing(comments) ==> IdsDecreasing(r)
  {
    if comments == [] then []
    else
      IncreasingTail(comments);
      NewestFirst(comments[1..], p) + (if comments[0].postId == p then [comments[0]] else [])
  }

  /** `comments_for`: `SELECT ... WHERE post_id=? ORDER BY id DESC`. */
  function CommentsFor(s: Store, p: string): (r: seq<Comment>)
    ensures forall c :: c in r <==> c in s.comments && c.postId == p
    ensures Valid(s) ==> IdsDecreasing(r)
  {
    NewestFirst(s.comments, p)
  }

  /** `add_comment`: always inserts, with the next AUTOINCREMENT id. */
  function AddComment(s: Store, p: string, d: string, nameFull: string, text: string, now: string): (r: Store)
    ensures r.likes == s.likes
    ensures |r.comments| == |s.comments| + 1 && r.comments[..|s.comments|] == s.comments
    ensures var c := r.comments[|s.comments|];
            && c == Comment(c.id, p, d, nameFull, text, now)
            && (IdsIssued(s.comments, s.lastId) ==> forall i :: 0 <= i < |s.comments| ==> s.comments[i].id < c.id)
    ensures Valid(s) ==> Valid(r)
  {
    var c := Comment(s.lastId + 1, p, d, nameFull, text, now);
    var comments := s.comments + [c];
    assert comments[..|s.comments|] == s.comments;
    Store(s.likes, comments, s.lastId + 1)
  }

  /** After `add_comment` the new comment heads the list of its post, and
      every other post's list is unchanged. */
  lemma CommentsForAfterAdd(s: Store, p: string, d: string, nameFull: string, text: string, now: string, q: string)
    ensures var r := AddComment(s, p, d, nameFull, text, now);
            CommentsFor(r, q) == (if q == p then [r.comments[|s.comments|]] else []) + CommentsFor(s, q)
  {
    var r := AddComment(s, p, d, nameFull, text, now);
    assert r.comments == s.comments + [r.comments[|s.comments|]];
    NewestFirstAppend(s.comments, r.comments[|s.comments|], q);
  }

  lemma {:induction false} NewestFirstAppend(comments: seq<Comment>, c: Comment, p: string)
    ensures NewestFirst(comments + [c], p) == (if c.postId == p then [c] else []) + NewestFirst(comments, p)
    decreases |comments|
  {
    if comments == [] {
      assert comments + [c] == [c];
    } else {
      assert (comments + [c])[0] == comments[0];
      assert (comments + [c])[1..] == comments[1..] + [c];
      NewestFirstAppend(comments[1..], c, p);
    }
  }

  /** The comments without the one whose id is `id`. */
  function WithoutId(comments: seq<Comment>, id: int): (r: seq<Comment>)
    ensures forall c :: c in r <==> c in comments && c.id != id
    ensures IdsIncreasing(comments) ==> IdsIncreasing(r)
  {
    if comments == [] then []
    else
      IncreasingTail(comments);
      if comments[0].id == id then WithoutId(comments[1..], id)
      else [comments[0]] + WithoutId(comments[1..], id)
  }

  /** Removing an id no comment has changes nothing. */
  lemma {:induction false} WithoutAbsentId(comments: seq<Comment>, id: int)
    ensures (forall i :: 0 <= i < |comments| ==> comments[i].id != id) ==> WithoutId(comments, id) == comments
    decreases |comments|
  {
    if comments != [] {
      WithoutAbsentId(comments[1..], id);
      assert comments == [comments[0]] + comments[1..];
    }
  }

  /** `delete_comment`: removes the row with that id, if there is one; the
      AUTOINCREMENT counter is left alone. */
  function DeleteComment(s: Store, id: int): (r: Store)
    ensures r.likes == s.likes && r.lastId == s.lastId
    ensures forall c :: c in r.comments <==> c in s.comments && c.id != id
    ensures (forall i :: 0 <= i < |s.comments| ==> s.comments[i].id != id) ==> r == s
    ensures Valid(s) ==> Valid(r)
  {
    var comments := WithoutId(s.comments, id);
    WithoutAbsentId(s.comments, id);
    assert IdsIssued(s.comments, s.lastId) ==> IdsIssued(comments, s.lastId) by {
      if IdsIssued(s.comments, s.lastId) {
        forall i | 0 <= i < |comments|
          ensures 1 <= comments[i].id <= s.lastId
        {
          assert comments[i] in s.comments;
        }
      }
    }
    s.(comments := comments)
  }

  /** Deleting the comment just added restores the comments (the id it
      took stays used). */
  lemma DeleteUndoesAdd(s: Store, p: string, d: string, nameFull: string, text: string, now: string)
    requires Valid(s)
    ensures var r := AddComment(s, p, d, nameFull, text, now);
            DeleteComment(r, r.comments[|s.comments|].id) == s.(lastId := s.lastId + 1)
  {
    var r := AddComment(s, p, d, nameFull, text, now);
    var c := r.comments[|s.comments|];
    assert r.comments == s.comments + [c];
    WithoutIdLast(s.comments, c);
  }

  lemma {:induction false} WithoutIdLast(comments: seq<Comment>, c: Comment)
    requires forall i :: 0 <= i < |comments| ==> comments[i].id < c.id
    ensures WithoutId(comments + [c], c.id) == comments
    decreases |comments|
  {
    if comments == [] {
      assert comments + [c] == [c];
    } else {
      assert (comments + [c])[0] == comments[0];
      assert (comments + [c])[1..] == comments[1..] + [c];
      WithoutIdLast(comments[1..], c);
    }
  }
}

=== FILE: media.dfy ===
/** The photo and video galleries: `list_media` over a directory listing,
    the home page's `top3_photos_by_likes`, and the admin's deletion of a
    media file. A directory is its listing, in the order `os.listdir`
    returns it; `None` stands for a path that is not a directory. */
module Media {
  import opened Wrappers
  import opened Text
  import opened Ranking
  import opened Engagement

  /** A directory entry: its name, whether `os.path.isfile` holds, and its
      creation time (`os.path.getctime`). */
  datatype DirEntry = DirEntry(name: string, isFile: bool, ctime: int)

  /** An item `list_media` returns. */
  datatype MediaItem = MediaItem(filename: string, ts: int)

  /** A photo on the home page, with its like count. */
  datatype Ranked = Ranked(filename: string, likes: nat, ts: int)

  const PhotoExtensions: seq<string> := [".jpg", ".jpeg", ".png", ".webp"]
  const VideoExtensions: seq<string> := [".mp4", ".webm", ".mov"]

  /** `name.lower().endswith(extensions)`. */
  predicate HasExtension(name: string, extensions: seq<string>) {
    exists i :: 0 <= i < |extensions| && EndsWith(Lower(name), extensions[i])
  }

  /** An entry `list_media` keeps: a regular file with an allowed extension. */
  predicate Listed(e: DirEntry, extensions: seq<string>) {
    e.isFile && HasExtension(e.name, extensions)
  }

  /** `post_id` of a media item: `"foto:" + filename` or `"video:" + filename`. */
  function PostId(kind: string, filename: string): string {
    kind + ":" + filename
  }

  /** The item `list_media` makes of an entry. */
  function ItemOf(e: DirEntry): MediaItem {
    MediaItem(e.name, e.ctime)
  }

  /** The items of the entries `list_media` keeps. */
  function KeptItems(entries: seq<DirEntry>, extensions: seq<string>): set<MediaItem> {
    set e | e in entries && Listed(e, extensions) :: ItemOf(e)
  }

  /** The loop of `list_media`: the kept entries, in directory order. */
  function Matching(entries: seq<DirEntry>, extensions: seq<string>): (r: seq<MediaItem>)
    ensures |r| <= |entries|
    ensures forall m :: m in r <==> m in KeptItems(entries, extensions)
    ensures |entries| == 1 ==>
              r == if Listed(entries[0], extensions) then [ItemOf(entries[0])] else []
  {
    if entries == [] then []
    else
      var e := entries[0];
      var rest := Matching(entries[1..], extensions);
      assert entries == [e] + entries[1..];
      assert KeptItems(entries, extensions)
             == (if Listed(e, extensions) then {ItemOf(e)} else {}) + KeptItems(entries[1..], extensions);
      if Listed(e, extensions) then [ItemOf(e)] + rest else rest
  }

  /** The filter keeps directory order: the items of `a + b` are those of
      `a` followed by those of `b`. */
  lemma {:induction false} MatchingAppend(a: seq<DirEntry>, b: seq<DirEntry>, extensions: seq<string>)
    ensures Matching(a + b, extensions) == Matching(a, extensions) + Matching(b, extensions)
    decreases |a|
  {
    if a == [] {
      assert a + b == b;
    } else {
      assert (a + b)[0] == a[0];
      assert (a + b)[1..] == a[1..] + b;
      MatchingAppend(a[1..], b, extensions);
    }
  }

  /** The sort key of `list_media`, the creation time. Comparing `(ts, 0)`
      pairs is comparing `ts`. */
  function TsKey(m: MediaItem): Key {
    (m.ts, 0)
  }

  /** `list_media`: the regular files whose lower-cased name ends in one of
      the extensions, newest first; files created at the same time keep their
      directory order. A path that is not a directory lists nothing. */
  function ListMedia(dir: Option<seq<DirEntry>>, extensions: seq<string>): (r: seq<MediaItem>)
    ensures dir.None? ==> r == []
    ensures dir.Some? ==> forall m :: m in r <==> m in KeptItems(dir.value, extensions)
    ensures forall i, j :: 0 <= i < j < |r| ==> r[i].ts >= r[j].ts
    ensures dir.Some? ==> multiset(r) == multiset(Matching(dir.value, extensions))
  {
    match dir
    case None => []
    case Some(entries) =>
      var matching := Matching(entries, extensions);
      var r := SortDesc(matching, TsKey);
      SameElements(r, matching);
      r
  }

  /** Files created at the same moment are listed in directory order. */
  lemma ListMediaStable(entries: seq<DirEntry>, extensions: seq<string>, ts: int)
    ensures WithKey(ListMedia(Some(entries), extensions), TsKey, (ts, 0))
            == WithKey(Matching(entries, extensions), TsKey, (ts, 0))
  {
    SortDescStable(Matching(entries, extensions), TsKey, (ts, 0));
  }

  /** The home page order: most likes first, the newer photo first on a tie. */
  function RankKey(x: Ranked): Key {
    (x.likes, x.ts)
  }

  /** The loop of `top3_photos_by_likes`: each listed photo with the like
      count of its post. */
  function WithLikeCounts(s: Store, photos: seq<MediaItem>): (r: seq<Ranked>)
    ensures |r| == |photos|
    ensures forall i :: 0 <= i < |r| ==>
              var fn := BaseName(photos[i].filename);
              r[i] == Ranked(fn, LikeCount(s, PostId("foto", fn)), photos[i].ts)
  {
    if photos == [] then []
    else
      var fn := BaseName(photos[0].filename);
      [Ranked(fn, LikeCount(s, PostId("foto", fn)), photos[0].ts)] + WithLikeCounts(s, photos[1..])
  }

  /** `items.sort(key=(likes, ts), reverse=True); items[:3]`: the three
      photos (or fewer) that rank highest, in rank order. */
  function Top3(items: seq<Ranked>): (r: seq<Ranked>)
    ensures |r| == if |items| < 3 then |items| else 3
    ensures forall i, j :: 0 <= i < j < |r| ==> KeyGe(RankKey(r[i]), RankKey(r[j]))
    ensures multiset(r) <= multiset(items)
    ensures forall x, y :: x in multiset(items) - multiset(r) && y in r ==> KeyGe(RankKey(y), RankKey(x))
  {
    TopN(items, RankKey, 3)
  }

  /** `top3_photos_by_likes`: at most three photos of the photo directory,
      each with its current like count, none outranked by a photo left out. */
  function Top3PhotosByLikes(s: Store, photosDir: Option<seq<DirEntry>>): (r: seq<Ranked>)
    ensures var photos := ListMedia(photosDir, PhotoExtensions);
            |r| == if |photos| < 3 then |photos| else 3
    ensures forall x :: x in r ==> x.likes == LikeCount(s, PostId("foto", x.filename))
    ensures forall i, j :: 0 <= i < j < |r| ==> KeyGe(RankKey(r[i]), RankKey(r[j]))
    ensures var items := WithLikeCounts(s, ListMedia(photosDir, PhotoExtensions));
            && multiset(r) <= multiset(items)
            && forall x, y :: x in multiset(items) - multiset(r) && y in r ==> KeyGe(RankKey(y), RankKey(x))
  {
    var items := WithLikeCounts(s, ListMedia(photosDir, PhotoExtensions));
    var r := Top3(items);
    assert forall x :: x in r ==> x in multiset(items);
    r
  }

  /** Three photos with 0, 3 and 1 likes rank as 3, 1, 0. */
  lemma Top3Scenario()
    ensures Top3([Ranked("c.jpg", 1, 30), Ranked("b.jpg", 3, 20), Ranked("a.jpg", 0, 10)])
            == [Ranked("b.jpg", 3, 20), Ranked("c.jpg", 1, 30), Ranked("a.jpg", 0, 10)]
  {
    SortThree(Ranked("c.jpg", 1, 30), Ranked("b.jpg", 3, 20), Ranked("a.jpg", 0, 10));
  }

  lemma SortThree(c: Ranked, b: Ranked, a: Ranked)
    requires RankKey(b).0 > RankKey(c).0 > RankKey(a).0
    ensures Top3([c, b, a]) == [b, c, a]
  {
    SortThreeSorted(c, b, a);
    var sorted := SortDesc([c, b, a], RankKey);
    assert sorted[..3] == sorted;
  }

  lemma SortThreeSorted(c: Ranked, b: Ranked, a: Ranked)
    requires RankKey(b).0 > RankKey(c).0 > RankKey(a).0
    ensures SortDesc([c, b, a], RankKey) == [b, c, a]
  {
    SortTwo(b, a);
    InsertBetween(c, b, a);
    SortDescStep([c, b, a], RankKey);
    assert [c, b, a][1..] == [b, a];
  }

  lemma SortTwo(b: Ranked, a: Ranked)
    requires RankKey(b).0 > RankKey(a).0
    ensures SortDesc([b, a], RankKey) == [b, a]
  {
    SortDescStep([a], RankKey);
    assert [a][1..] == [];
    InsertFront(a, [], RankKey);
    SortDescStep([b, a], RankKey);
    assert [b, a][1..] == [a];
    InsertFront(b, [a], RankKey);
  }

  lemma InsertBetween(c: Ranked, b: Ranked, a: Ranked)
    requires RankKey(b).0 > RankKey(c).0 > RankKey(a).0
    ensures SortedDesc([b, a], RankKey)
    ensures Insert(c, [b, a], RankKey) == [b, c, a]
  {
    InsertPast(c, [b, a], RankKey);
    assert [b, a][1..] == [a];
    InsertFront(c, [a], RankKey);
  }

  /** `admin_delete_video` / `admin_delete_photo`: the requested name is cut
      to its base name; unless it has one of the directory's extensions
      nothing happens, otherwise the regular file of that name, if any, is
      removed. */
  function DeleteMedia(dir: seq<DirEntry>, requested: string, extensions: seq<string>): (r: seq<DirEntry>)
    ensures !HasExtension(BaseName(requested), extensions) ==> r == dir
    ensures HasExtension(BaseName(requested), extensions) ==>
              forall e :: e in r <==> e in dir && !(e.isFile && e.name == BaseName(requested))
    ensures forall e :: e in dir && e !in r ==> e.isFile && '/' !in e.name
  {
    var fn := BaseName(requested);
    if !HasExtension(fn, extensions) then dir
    else WithoutFile(dir, fn)
  }

  /** The entries except the regular file named `fn`. */
  function WithoutFile(dir: seq<DirEntry>, fn: string): (r: seq<DirEntry>)
    ensures forall e :: e in r <==> e in dir && !(e.isFile && e.name == fn)
  {
    if dir == [] then []
    else
      assert forall e :: e in dir <==> e == dir[0] || e in dir[1..] by {
        assert dir == [dir[0]] + dir[1..];
      }
      (if dir[0].isFile && dir[0].name == fn then [] else [dir[0]]) + WithoutFile(dir[1..], fn)
  }

  /** After a deletion the listing is the old one without the deleted file. */
  lemma ListAfterDelete(dir: seq<DirEntry>, requested: string, extensions: seq<string>)
    requires HasExtension(BaseName(requested), extensions)
    ensures forall m :: m in ListMedia(Some(DeleteMedia(dir, requested, extensions)), extensions) <==>
              m in ListMedia(Some(dir), extensions) && m.filename != BaseName(requested)
  {
    var fn := BaseName(requested);
    var after := DeleteMedia(dir, requested, extensions);
    assert forall e :: e in after <==> e in dir && !(e.isFile && e.name == fn);
    KeptAfterRemoval(dir, after, fn, extensions);
    var before, now := ListMedia(Some(dir), extensions), ListMedia(Some(after), extensions);
    assert forall m :: m in now <==> m in KeptItems(after, extensions);
    assert forall m :: m in before <==> m in KeptItems(dir, extensions);
  }

  lemma KeptAfterRemoval(dir: seq<DirEntry>, after: seq<DirEntry>, fn: string, extensions: seq<string>)
    requires forall e :: e in after <==> e in dir && !(e.isFile && e.name == fn)
    ensures forall m :: m in KeptItems(after, extensions) <==> m in KeptItems(dir, extensions) && m.filename != fn
  {
    forall m | m in KeptItems(after, extensions)
      ensures m in KeptItems(dir, extensions) && m.filename != fn
    {
      var e :| e in after && Listed(e, extensions) && ItemOf(e) == m;
      assert e in dir;
    }
    forall m | m in KeptItems(dir, extensions) && m.filename != fn
      ensures m in KeptItems(after, extensions)
    {
      var e :| e in dir && Listed(e, extensions) && ItemOf(e) == m;
      assert e in after;
    }
  }
}

=== FILE: ranking.dfy ===
/** Python's `list.sort(key=..., reverse=True)` on keys that are pairs of
    integers: a stable sort from the largest key down. Python compares tuples
    lexicographically, and `reverse=True` keeps elements with equal keys in
    their original order. */
module Ranking {

  type Key = (int, int)

  /** Tuple comparison `a >= b`. */
  predicate KeyGe(a: Key, b: Key) {
    a.0 > b.0 || (a.0 == b.0 && a.1 >= b.1)
  }

  /** Sequences with the same multiset have the same elements. */
  lemma SameElements<T>(a: seq<T>, b: seq<T>)
    requires multiset(a) == multiset(b)
    ensures forall x :: x in a <==> x in b
  {
    forall x
      ensures x in a <==> x in b
    {
      assert x in a <==> x in multiset(a);
      assert x in b <==> x in multiset(b);
    }
  }

  /** Largest key first. */
  predicate SortedDesc<T>(s: seq<T>, key: T -> Key) {
    forall i, j :: 0 <= i < j < |s| ==> KeyGe(key(s[i]), key(s[j]))
  }

  /** The elements of `s` whose key is `k`, in their order in `s`. */
  function WithKey<T>(s: seq<T>, key: T -> Key, k: Key): (r: seq<T>)
    ensures |r| <= |s|
    ensures forall i :: 0 <= i < |r| ==> key(r[i]) == k
  {
    if s == [] then []
    else (if key(s[0]) == k then [s[0]] else []) + WithKey(s[1..], key, k)
  }

  /** Places `x` before the first element whose key it is at least, so
      after every element with a larger key. */
  function Insert<T(==)>(x: T, s: seq<T>, key: T -> Key): (r: seq<T>)
    requires SortedDesc(s, key)
    ensures SortedDesc(r, key)
    ensures multiset(r) == multiset(s) + multiset{x}
    ensures |r| == |s| + 1
    ensures r[0] == x || (|s| > 0 && r[0] == s[0])
  {
    if |s| == 0 || KeyGe(key(x), key(s[0])) then
      SortedCons(x, s, key);
      [x] + s
    else
      var rest := Insert(x, s[1..], key);
      assert s == [s[0]] + s[1..];
      SortedCons(s[0], rest, key);
      [s[0]] + rest
  }

  /** A head whose key is at least the next one's keeps a sorted sequence sorted. */
  lemma SortedCons<T>(h: T, s: seq<T>, key: T -> Key)
    requires SortedDesc(s, key) && (s == [] || KeyGe(key(h), key(s[0])))
    ensures SortedDesc([h] + s, key)
  {
    var r := [h] + s;
    forall i, j | 0 <= i < j < |r|
      ensures KeyGe(key(r[i]), key(r[j]))
    {
      if i == 0 {
        assert r[j] == s[j - 1];
        assert KeyGe(key(s[0]), key(s[j - 1])) || j == 1;
      } else {
        assert r[i] == s[i - 1] && r[j] == s[j - 1];
      }
    }
  }

  /** The stable descending sort: each element, from the last one back, is
      inserted in front of the elements with a key equal to its own. */
  function SortDesc<T(==)>(s: seq<T>, key: T -> Key): (r: seq<T>)
    ensures SortedDesc(r, key)
    ensures multiset(r) == multiset(s)
    ensures |r| == |s|
  {
    if s == [] then []
    else
      assert s == [s[0]] + s[1..];
      Insert(s[0], SortDesc(s[1..], key), key)
  }

  /** One step of the sort: the first element is inserted into the sorted rest. */
  lemma SortDescStep<T>(s: seq<T>, key: T -> Key)
    requires s != []
    ensures SortDesc(s, key) == Insert(s[0], SortDesc(s[1..], key), key)
  {
  }

  /** `Insert` places `x` in front when its key is at least the head's. */
  lemma InsertFront<T>(x: T, s: seq<T>, key: T -> Key)
    requires SortedDesc(s, key) && (s == [] || KeyGe(key(x), key(s[0])))
    ensures Insert(x, s, key) == [x] + s
  {
  }

  /** `Insert` passes over a head whose key is larger. */
  lemma InsertPast<T>(x: T, s: seq<T>, key: T -> Key)
    requires SortedDesc(s, key) && s != [] && !KeyGe(key(x), key(s[0]))
    ensures SortedDesc(s[1..], key)
    ensures Insert(x, s, key) == [s[0]] + Insert(x, s[1..], key)
  {
  }

  lemma {:induction false} WithKeyAppend<T>(a: seq<T>, b: seq<T>, key: T -> Key, k: Key)
    ensures WithKey(a + b, key, k) == WithKey(a, key, k) + WithKey(b, key, k)
    decreases |a|
  {
    if a == [] {
      assert a + b == b;
    } else {
      assert (a + b)[0] == a[0];
      assert (a + b)[1..] == a[1..] + b;
      WithKeyAppend(a[1..], b, key, k);
    }
  }

  /** No element whose key is larger than `x`'s is placed after `x`, and no
      element with the same key is placed before it. */
  lemma {:induction false} InsertWithKey<T>(x: T, s: seq<T>, key: T -> Key, k: Key)
    requires SortedDesc(s, key)
    ensures WithKey(Insert(x, s, key), key, k)
            == (if key(x) == k then [x] else []) + WithKey(s, key, k)
    decreases |s|
  {
    if |s| == 0 || KeyGe(key(x), key(s[0])) {
      WithKeyAppend([x], s, key, k);
    } else {
      InsertWithKey(x, s[1..], key, k);
      var rest := Insert(x, s[1..], key);
      WithKeyAppend([s[0]], rest, key, k);
      WithKeyAppend([s[0]], s[1..], key, k);
      assert s == [s[0]] + s[1..];
      if key(x) == k {
        assert key(s[0]) != k;
      }
    }
  }

  /** The sort is stable: for every key, the elements with that key come
      out in the order they went in. */
  lemma {:induction false} SortDescStable<T>(s: seq<T>, key: T -> Key, k: Key)
    ensures WithKey(SortDesc(s, key), key, k) == WithKey(s, key, k)
    decreases |s|
  {
    if s != [] {
      SortDescStable(s[1..], key, k);
      InsertWithKey(s[0], SortDesc(s[1..], key), key, k);
      WithKeyAppend([s[0]], s[1..], key, k);
      assert s == [s[0]] + s[1..];
    }
  }

  /** `sorted(s, key=key, reverse=True)[:n]`: the `n` elements with the
      largest keys, or all of them when there are fewer. */
  function TopN<T(==)>(s: seq<T>, key: T -> Key, n: nat): (r: seq<T>)
    ensures |r| == if |s| < n then |s| else n
    ensures SortedDesc(r, key)
    ensures multiset(r) <= multiset(s)
    ensures forall x, y :: x in multiset(s) - multiset(r) && y in r ==> KeyGe(key(y), key(x))
  {
    var sorted := SortDesc(s, key);
    var m := if |s| < n then |s| else n;
    TopNFacts(sorted, key, m);
    sorted[..m]
  }

  lemma TopNFacts<T>(sorted: seq<T>, key: T -> Key, m: nat)
    requires SortedDesc(sorted, key) && m <= |sorted|
    ensures multiset(sorted[..m]) <= multiset(sorted)
    ensures forall x, y :: x in multiset(sorted) - multiset(sorted[..m]) && y in sorted[..m]
              ==> KeyGe(key(y), key(x))
  {
    var front, back := sorted[..m], sorted[m..];
    assert multiset(sorted) - multiset(front) == multiset(back) by {
      assert sorted == front + back;
    }
    forall x, y | x in multiset(back) && y in front
      ensures KeyGe(key(y), key(x))
    {
      assert x in back;
      FrontOutranksBack(sorted, key, m, x, y);
    }
  }

  lemma FrontOutranksBack<T>(sorted: seq<T>, key: T -> Key, m: nat, x: T, y: T)
    requires SortedDesc(sorted, key) && m <= |sorted|
    requires x in sorted[m..] && y in sorted[..m]
    ensures KeyGe(key(y), key(x))
  {
    var i :| 0 <= i < m && sorted[..m][i] == y;
    var j :| 0 <= j < |sorted| - m && sorted[m..][j] == x;
    assert sorted[i] == y && sorted[m + j] == x;
  }
}

=== FILE: routes.dfy ===
/** The two visitor form handlers that write to the engagement store, the
    `/like` and `/comment` routes. Form fields arrive as raw text (a missing
    field is ""); the device id and the clock are parameters. The redirect
    that follows either way is not modelled. */
module Routes {
  import opened Text
  import opened Engagement

  /** The longest comment text the site stores. */
  const MaxCommentLength: nat := 250

  /** Every stored comment has a non-empty text of at most 250 characters. */
  predicate CommentTextsBounded(s: Store) {
    forall i :: 0 <= i < |s.comments| ==> 0 < |s.comments[i].text| <= MaxCommentLength
  }

  /** The `/comment` route: the post id, name and text are stripped; if any
      of them is then empty nothing is stored, otherwise the text is cut to
      250 characters and the comment is added. */
  function SubmitComment(s: Store, postId: string, nameFull: string, text: string,
                         device: string, now: string): (r: Store)
    ensures AllSpace(postId) || AllSpace(nameFull) || AllSpace(text) ==> r == s
    ensures !(AllSpace(postId) || AllSpace(nameFull) || AllSpace(text)) ==>
              && |r.comments| == |s.comments| + 1
              && r.comments[..|s.comments|] == s.comments
              && var c := r.comments[|s.comments|];
                 && c.postId == Strip(postId) && c.nameFull == Strip(nameFull) && c.deviceId == device
                 && IsPrefix(c.text, Strip(text))
                 && |c.text| == if |Strip(text)| <= MaxCommentLength then |Strip(text)| else MaxCommentLength
    ensures r.likes == s.likes
    ensures Valid(s) ==> Valid(r)
    ensures CommentTextsBounded(s) ==> CommentTextsBounded(r)
  {
    var p := Strip(postId);
    var n := Strip(nameFull);
    var t := Strip(text);
    if p == [] || n == [] || t == [] then s
    else AddComment(s, p, device, n, Truncate(t, MaxCommentLength), now)
  }

  /** The `/like` route: the post id and name are stripped; if either is
      then empty nothing happens, otherwise `add_like` is called and its
      answer ignored. */
  function SubmitLike(s: Store, postId: string, nameFull: string, device: string, now: string): (r: Store)
    ensures AllSpace(postId) || AllSpace(nameFull) ==> r == s
    ensures !(AllSpace(postId) || AllSpace(nameFull)) ==>
              && HasLiked(r, Strip(postId), device)
              && LikeCount(r, Strip(postId)) <= LikeCount(s, Strip(postId)) + 1
              && r.likes == (if HasLiked(s, Strip(postId), device) then s.likes
                             else s.likes + [Like(Strip(postId), device, Strip(nameFull), now)])
              && forall q :: LikeCount(r, q) == LikeCount(s, q)
                   + (if q == Strip(postId) && !HasLiked(s, Strip(postId), device) then 1 else 0)
    ensures r.comments == s.comments && r.lastId == s.lastId
    ensures Valid(s) ==> Valid(r)
  {
    var p := Strip(postId);
    var n := Strip(nameFull);
    if p == [] || n == [] then s
    else
      AddLikeCounts(s, p, device, n, now);
      AddLike(s, p, device, n, now).1
  }
}

=== FILE: text.dfy ===
/** The handful of Python string operations the site relies on, restated over
    `string` (a sequence of Unicode scalar values, as a Python `str` is). */
module Text {

  /** `str.isspace()` for a single character: the Unicode white-space set that
      Python's `strip()` and `split()` use. */
  predicate IsSpace(c: char) {
    var n := c as int;
    || n == 32 || 9 <= n <= 13 || 28 <= n <= 31
    || n == 0x85 || n == 0xA0 || n == 0x1680
    || 0x2000 <= n <= 0x200A || n == 0x2028 || n == 0x2029
    || n == 0x202F || n == 0x205F || n == 0x3000
  }

  /** A character at which `str.splitlines()` ends a line. */
  predicate IsLineBreak(c: char) {
    var n := c as int;
    || 10 <= n <= 13 || 28 <= n <= 30
    || n == 0x85 || n == 0x2028 || n == 0x2029
  }

  lemma LineBreakIsSpace(c: char)
    ensures IsLineBreak(c) ==> IsSpace(c)
  {
  }

  predicate AllSpace(s: string) {
    forall i :: 0 <= i < |s| ==> IsSpace(s[i])
  }

  predicate NoSpace(s: string) {
    forall i :: 0 <= i < |s| ==> !IsSpace(s[i])
  }

  predicate NoLineBreak(s: string) {
    forall i :: 0 <= i < |s| ==> !IsLineBreak(s[i])
  }

  /** Neither begins nor ends with white space: what `strip()` returns. */
  predicate Stripped(s: string) {
    s == [] || (!IsSpace(s[0]) && !IsSpace(s[|s| - 1]))
  }

  predicate IsPrefix(p: string, s: string) {
    |p| <= |s| && s[..|p|] == p
  }

  predicate EndsWith(s: string, suffix: string) {
    |suffix| <= |s| && s[|s| - |suffix|..] == suffix
  }

  /** The number of white-space characters `s` starts with. */
  function LeadingSpace(s: string): (n: nat)
    ensures n <= |s|
    ensures forall i :: 0 <= i < n ==> IsSpace(s[i])
    ensures n < |s| ==> !IsSpace(s[n])
  {
    if |s| > 0 && IsSpace(s[0]) then 1 + LeadingSpace(s[1..]) else 0
  }

  /** The end of `s[lo..hi]` once its trailing white space is cut off. */
  function TrailingSpaceStart(s: string, lo: nat, hi: nat): (n: nat)
    requires lo <= hi <= |s|
    ensures lo <= n <= hi
    ensures forall i :: n <= i < hi ==> IsSpace(s[i])
    ensures n > lo ==> !IsSpace(s[n - 1])
    decreases hi
  {
    if hi > lo && IsSpace(s[hi - 1]) then TrailingSpaceStart(s, lo, hi - 1) else hi
  }

  /** `str.strip()`: the slice of `s` left once the white space at both ends
      is cut off. */
  function Strip(s: string): (r: string)
    ensures Stripped(r)
    ensures |r| <= |s|
    ensures exists k :: StripsTo(s, k, r)
    ensures r == [] <==> AllSpace(s)
    ensures Stripped(s) ==> r == s
  {
    var a := LeadingSpace(s);
    var b := TrailingSpaceStart(s, a, |s|);
    assert StripsTo(s, a, s[a..b]);
    assert a == b ==> AllSpace(s);
    s[a..b]
  }

  /** `r` is the slice of `s` starting at `k`, and only white space of `s`
      lies outside it. */
  predicate StripsTo(s: string, k: int, r: string) {
    && 0 <= k <= |s| - |r|
    && r == s[k..k + |r|]
    && (forall i :: 0 <= i < k ==> IsSpace(s[i]))
    && (forall i :: k + |r| <= i < |s| ==> IsSpace(s[i]))
  }

  /** Every character of `Strip(s)` is a character of `s`. */
  lemma StripKeepsCharacters(s: string)
    ensures forall c :: c in Strip(s) ==> c in s
  {
    var a := LeadingSpace(s);
    var r := s[a..TrailingSpaceStart(s, a, |s|)];
    assert Strip(s) == r;
    forall c | c in r
      ensures c in s
    {
      var i :| 0 <= i < |r| && r[i] == c;
      assert s[a + i] == c;
    }
  }

  lemma StripNoLineBreak(s: string)
    requires NoLineBreak(s)
    ensures NoLineBreak(Strip(s))
  {
    StripKeepsCharacters(s);
    var r := Strip(s);
    forall i | 0 <= i < |r|
      ensures !IsLineBreak(r[i])
    {
      assert r[i] in r;
    }
  }

  /** Python `text[:n]` on a string: the first `n` characters, or all of them
      when there are fewer. */
  function Truncate(s: string, n: nat): (r: string)
    ensures IsPrefix(r, s)
    ensures |r| == if |s| <= n then |s| else n
  {
    if |s| > n then s[..n] else s
  }

  /** `str.lower()` restricted to ASCII letters. */
  function Lower(s: string): (r: string)
    ensures |r| == |s|
    ensures forall i :: 0 <= i < |s| ==>
              r[i] == if 'A' <= s[i] <= 'Z' then (s[i] as int + 32) as char else s[i]
    ensures forall i :: 0 <= i < |s| ==> (r[i] == s[i] <==> !('A' <= s[i] <= 'Z'))
    ensures forall i :: 0 <= i < |s| ==> !('A' <= r[i] <= 'Z')
  {
    if s == [] then []
    else
      var c := s[0];
      var l := if 'A' <= c <= 'Z' then (c as int + 32) as char else c;
      [l] + Lower(s[1..])
  }

  /** `str.splitlines()`, with `line` the part of the current line read so far. */
  function SplitLinesFrom(s: string, line: string): seq<string>
    decreases |s|
  {
    if s == [] then (if line == [] then [] else [line])
    else if s[0] == '\r' && |s| > 1 && s[1] == '\n' then [line] + SplitLinesFrom(s[2..], [])
    else if IsLineBreak(s[0]) then [line] + SplitLinesFrom(s[1..], [])
    else SplitLinesFrom(s[1..], line + [s[0]])
  }

  /** `str.splitlines()`: the lines of `s`, each without its line break. */
  function SplitLines(s: string): (r: seq<string>)
    ensures forall i :: 0 <= i < |r| ==> NoLineBreak(r[i])
    ensures NoLineBreak(s) ==> r == if s == [] then [] else [s]
  {
    SplitLinesFromNoBreak(s, []);
    SplitLinesOfPlainText(s);
    SplitLinesFrom(s, [])
  }

  lemma {:induction false} SplitLinesFromNoBreak(s: string, line: string)
    requires NoLineBreak(line)
    ensures forall i :: 0 <= i < |SplitLinesFrom(s, line)| ==> NoLineBreak(SplitLinesFrom(s, line)[i])
    decreases |s|
  {
    if s == [] {
    } else if s[0] == '\r' && |s| > 1 && s[1] == '\n' {
      SplitLinesFromNoBreak(s[2..], []);
    } else if IsLineBreak(s[0]) {
      SplitLinesFromNoBreak(s[1..], []);
    } else {
      SplitLinesFromNoBreak(s[1..], line + [s[0]]);
    }
  }

  /** Reading a break-free stretch `w` only extends the current line. */
  lemma {:induction false} SplitLinesFromWord(w: string, rest: string, line: string)
    requires NoLineBreak(w)
    ensures SplitLinesFrom(w + rest, line) == SplitLinesFrom(rest, line + w)
    decreases |w|
  {
    if w == [] {
      assert w + rest == rest;
      assert line + w == line;
    } else {
      assert (w + rest)[0] == w[0];
      assert !IsLineBreak(w[0]);
      assert (w + rest)[1..] == w[1..] + rest;
      SplitLinesFromWord(w[1..], rest, line + [w[0]]);
      assert line + [w[0]] + w[1..] == line + w;
    }
  }

  lemma SplitLinesOfPlainText(s: string)
    ensures NoLineBreak(s) && s != [] ==> SplitLinesFrom(s, []) == [s]
  {
    if NoLineBreak(s) && s != [] {
      SplitLinesFromWord(s, [], []);
      assert s + [] == s;
      assert [] + s == s;
    }
  }

  /** `a` ends a line for good: its last character is a line break that
      does not pair with a "\n" at the start of `b` into "\r\n". */
  predicate EndsLine(a: string, b: string) {
    && a != [] && IsLineBreak(a[|a| - 1])
    && !(a[|a| - 1] == '\r' && b != [] && b[0] == '\n')
  }

  /** One line ending: "\r\n" or a single line-break character. */
  predicate LineEnd(e: string) {
    e == "\r\n" || (|e| == 1 && IsLineBreak(e[0]))
  }

  /** A text that ends a line splits independently of what follows it. */
  lemma {:induction false} SplitLinesFromAppend(a: string, b: string, line: string)
    requires EndsLine(a, b)
    ensures SplitLinesFrom(a + b, line) == SplitLinesFrom(a, line) + SplitLinesFrom(b, [])
    decreases |a|
  {
    var ab := a + b;
    assert ab[0] == a[0];
    if |a| == 1 {
      assert ab[1..] == b;
      if a[0] == '\r' && |ab| > 1 {
        assert ab[1] == b[0];
      }
    } else if a[0] == '\r' && a[1] == '\n' {
      assert ab[1] == a[1];
      assert ab[2..] == a[2..] + b;
      if |a| == 2 {
        assert a[2..] == [];
      } else {
        SplitLinesFromAppend(a[2..], b, []);
      }
    } else if IsLineBreak(a[0]) {
      assert ab[1..] == a[1..] + b;
      assert ab[1] == a[1];
      SplitLinesFromAppend(a[1..], b, []);
    } else {
      assert ab[1..] == a[1..] + b;
      SplitLinesFromAppend(a[1..], b, line + [a[0]]);
    }
  }

  /** Splitting `a + b` where `a` ends a line splits `a` and `b` separately. */
  lemma SplitLinesAppend(a: string, b: string)
    requires a == [] || EndsLine(a, b)
    ensures SplitLines(a + b) == SplitLines(a) + SplitLines(b)
  {
    if a == [] {
      assert a + b == b;
    } else {
      SplitLinesFromAppend(a, b, []);
    }
  }

  /** A break-free text followed by one line ending reads back as that one
      line, even when it is empty. With `SplitLinesAppend` and `SplitLines`'s
      own contract this fixes the lines of every text. */
  lemma SplitLinesOneLine(w: string, e: string)
    requires NoLineBreak(w) && LineEnd(e)
    ensures SplitLines(w + e) == [w]
  {
    SplitLinesFromWord(w, e, []);
    assert [] + w == w;
    if e == "\r\n" {
      assert e[2..] == [];
    } else {
      assert e[1..] == [];
    }
  }

  /** The longest prefix of `s` free of white space. */
  function TakeWord(s: string): (r: string)
    ensures IsPrefix(r, s) && NoSpace(r)
    ensures |r| < |s| ==> IsSpace(s[|r|])
  {
    if s == [] || IsSpace(s[0]) then [] else [s[0]] + TakeWord(s[1..])
  }

  /** `str.split()` with no separator: the maximal runs of non-space
      characters, in order. */
  function SplitWords(s: string): (r: seq<string>)
    ensures forall i :: 0 <= i < |r| ==> r[i] != [] && NoSpace(r[i])
    ensures r == [] <==> AllSpace(s)
    ensures r != [] ==> r[0] == TakeWord(s[LeadingSpace(s)..])
    decreases |s|
  {
    if s == [] then []
    else if IsSpace(s[0]) then
      assert s[LeadingSpace(s)..] == s[1..][LeadingSpace(s[1..])..];
      SplitWords(s[1..])
    else
      var w := TakeWord(s);
      assert |w| > 0 && s[0..] == s;
      [w] + SplitWords(s[|w|..])
  }

  /** A single word splits to itself. */
  lemma SplitWordsOfWord(w: string)
    requires w != [] && NoSpace(w)
    ensures SplitWords(w) == [w]
  {
    var t := TakeWord(w);
    assert |t| == |w|;
    assert t == w[..|t|] == w;
    assert w[|w|..] == [];
  }

  /** White space in front changes no word. */
  lemma {:induction false} SplitWordsAfterSpace(a: string, b: string)
    requires AllSpace(a)
    ensures SplitWords(a + b) == SplitWords(b)
    decreases |a|
  {
    if a == [] {
      assert a + b == b;
    } else {
      assert (a + b)[0] == a[0];
      assert (a + b)[1..] == a[1..] + b;
      SplitWordsAfterSpace(a[1..], b);
    }
  }

  /** A word that ends inside `x` is not lengthened by what follows `x`. */
  lemma {:induction false} TakeWordAppend(x: string, b: string)
    requires |TakeWord(x)| < |x|
    ensures TakeWord(x + b) == TakeWord(x)
    decreases |x|
  {
    assert (x + b)[0] == x[0];
    if !IsSpace(x[0]) {
      assert (x + b)[1..] == x[1..] + b;
      TakeWordAppend(x[1..], b);
    }
  }

  /** `split()` of a text cut at white space is the split of the two parts:
      together with `SplitWordsOfWord` and `SplitWordsAfterSpace` this fixes
      the words as the maximal non-space runs, in order. */
  lemma {:induction false} SplitWordsAppend(a: string, b: string)
    requires a == [] || IsSpace(a[|a| - 1])
    ensures SplitWords(a + b) == SplitWords(a) + SplitWords(b)
    decreases |a|
  {
    if a == [] {
      assert a + b == b;
    } else if IsSpace(a[0]) {
      assert (a + b)[0] == a[0];
      assert (a + b)[1..] == a[1..] + b;
      if |a| == 1 {
        assert a[1..] == [];
      } else {
        SplitWordsAppend(a[1..], b);
      }
    } else {
      var w := TakeWord(a);
      assert |w| < |a|;
      TakeWordAppend(a, b);
      assert (a + b)[0] == a[0];
      var rest := a[|w|..];
      assert (a + b)[|w|..] == rest + b;
      assert rest[|rest| - 1] == a[|a| - 1];
      SplitWordsAppend(rest, b);
    }
  }

  /** `first_name`: the first word of the stripped full name, or "" when
      there is none. */
  function FirstName(full: string): (r: string)
    ensures IsPrefix(r, Strip(full)) && NoSpace(r)
    ensures r == [] <==> Strip(full) == []
    ensures |r| < |Strip(full)| ==> IsSpace(Strip(full)[|r|])
  {
    var t := Strip(full);
    if t == [] then [] else SplitWords(t)[0]
  }

  /** `os.path.basename` (POSIX): the part after the last "/". */
  function BaseName(path: string): (r: string)
    ensures EndsWith(path, r)
    ensures '/' !in r
    ensures |r| < |path| ==> path[|path| - |r| - 1] == '/'
  {
    if path == [] then []
    else if path[|path| - 1] == '/' then []
    else BaseName(path[..|path| - 1]) + [path[|path| - 1]]
  }

  /** A name without "/" is its own base name, so `BaseName` is idempotent. */
  lemma {:induction false} BaseNameOfPlainName(name: string)
    requires '/' !in name
    ensures BaseName(name) == name
    decreases |name|
  {
    if name != [] {
      var init := name[..|name| - 1];
      forall i | 0 <= i < |init|
        ensures init[i] != '/'
      {
        assert init[i] == name[i];
      }
      BaseNameOfPlainName(init);
      assert init + [name[|name| - 1]] == name;
    }
  }

  lemma BaseNameIdempotent(path: string)
    ensures BaseName(BaseName(path)) == BaseName(path)
  {
    BaseNameOfPlainName(BaseName(path));
  }
}

=== FILE: wrappers.dfy ===
/** Option, used for values that may be absent (a missing directory, a form
    field that does not parse as an integer). */
module Wrappers {

  datatype Option<+T> = None | Some(value: T)
}
